=== FILE: README.md ===
# WhatsApp OTP and notification service: a Dafny model

The service relays one-time passwords and notifications over WhatsApp.
This project models its decision and bookkeeping layer in Dafny and proves
properties of that model. The model covers:

- **The phone cleaners** (`Phone`). There are two of them:
  - the subscription key, which keeps the digits only;
  - the sender number, which keeps the digits and prepends the country code 249 when it is missing.
- **The subscription gate** (`Subscriptions`, from `subscriptions.js`). It is a store of subscription documents with a read-through cache in front of it. Lookups fail closed.
- **The OTP poller** (`OtpDispatch`, from `index-otp-only.js`). It has four parts:
  - the query that selects users whose OTP has not been sent;
  - the `{OTP}` template substitution;
  - one attempt per record;
  - the marking that stops a record from being sent again.
- **The inbound command handler** (`Commands`, from `index-render.js`). It handles subscribe, unsubscribe and help messages. The subscribe command writes the store directly and leaves the `subscriptions.js` cache unchanged, so a number cached as not subscribed stays reported so (`Commands.SubscribeCommandLeavesCacheStale`).
- **The per-client session state** (`Session`). This is the readiness flag and the QR token, the lifecycle events that change them, and the `/qr` and `/status` answers read from them. It covers the handlers of all three programs.
- **The authenticated HTTP endpoints** (`HttpApi`):
  - `/send-message` and its `/send` alias;
  - `/send-notification`;
  - `/check-subscription/:phone`.

Supporting modules:

- **`JsString`** models the JavaScript string operations the code relies on:
  - `indexOf`;
  - `replace` with a string pattern, which replaces the first occurrence only and expands `$` patterns;
  - `toLowerCase`;
  - `trim`;
  - number-to-string conversion.
- **`JsValue`** models untyped request and document fields, with their truthiness and string coercion.
- **`Transport`** records the calls made to the messaging client. The answers to those calls are inputs of the model.

Every outside dependency is an explicit input:

- the results of `getNumberId`, `sendMessage` and `getContact`;
- whether a store call fails, including the store not being connected;
- the configured API key and the message template;
- the current time, which is an opaque number.

## Model

| member | source | states |
|---|---|---|
| Phone.DigitsOnly | subscriptions.js:12 | the subscription key consists of digits only and is never longer than the input |
| Phone.DigitsOnlyKeepsEveryDigit | subscriptions.js:44 | every digit of the input survives as often as it occurs, and no other character does |
| Phone.DigitsOnlyIdempotent | subscriptions.js:76 | the key function is idempotent |
| Phone.DigitsOnlyIgnoresDigitFree | index-render.js:191 | removing digit-free text such as the chat-id suffix does not change the digits |
| Phone.Normalize | index-otp-only.js:120-121 | the sender number is all digits, starts with 249, ends with the input's digits, and adds at most the three prefix digits |
| Phone.NormalizeFixesExactlyCanonical | index-render.js:194-199 | Normalize leaves a string unchanged exactly when it is all digits and already starts with 249 |
| Phone.NormalizeIdempotent | index-optimized.js:96-97 | normalising twice is normalising once |
| Phone.PrefixAddedOnlyWhenMissing | index-render.js:217-218 | the prefix is added if and only if the digits do not already begin with 249 |
| Phone.NormalizeAddsPrefix | index-render.js:353-354 | a digit string without the prefix becomes 249 followed by that string |
| Phone.NormalizeOfDigits | index-otp-only.js:120-121 | stripping non-digits before normalising changes nothing |
| Phone.DigitsOfCanonical | index-render.js:244 | the subscription key of a normalised number is that number itself |
| Subscriptions.Upsert | subscriptions.js:14-24 | an upsert with `$set` creates the document if absent, sets exactly the given fields, keeps the others, and changes no other document |
| Subscriptions.SubscribeUser | subscriptions.js:9-35 | on success the key's document says subscribed, the cache holds true for the key, other documents are unchanged and a coherent cache stays coherent; on a store failure nothing changes and the outcome is failure |
| Subscriptions.UnsubscribeUser | subscriptions.js:41-67 | on success the key's document exists with subscribed false, the cache entry is removed, other documents are unchanged; on a store failure nothing changes and the outcome is failure |
| Subscriptions.CheckSubscription | subscriptions.js:74-99 | a cache hit answers the cached value and changes nothing; a miss answers what the store says and caches it for that key only; a store error answers false and caches nothing; the store is never written |
| Subscriptions.FailClosed | subscriptions.js:95-98 | a true answer comes only from a cached true or from a stored document with subscribed true, never from an error |
| Subscriptions.CoherentCacheIsTransparent | subscriptions.js:78-94 | while every cache entry agrees with the store, a lookup answers exactly what the store says |
| Subscriptions.SubscribeThenCheck | subscriptions.js:26-27 | after a successful subscribe, any spelling of the same number is reported subscribed, even if the store then fails |
| Subscriptions.UnsubscribeThenCheck | subscriptions.js:58-59 | after a successful unsubscribe, any spelling of the same number is reported not subscribed, including after a restart that empties the cache |
| Subscriptions.GetSubscriptionStats | subscriptions.js:104-122 | null exactly on a store error; otherwise total is the number of documents, subscribed plus unsubscribed equals total, and cacheSize is the cache's size |
| Subscriptions.PartitionSizes | subscriptions.js:108-110 | subscribed and not-subscribed documents partition the collection |
| JsString.IndexOf | index-otp-only.js:117 | the position found is an occurrence and no earlier position is one; when none is found, there is no occurrence |
| JsString.ReplaceFirst | index-otp-only.js:117 | a string without the pattern is returned unchanged |
| JsString.SubstitutionVerbatim | index-otp-only.js:117 | a replacement without `$` is inserted verbatim |
| JsString.ReplaceFirstSplices | index-render.js:191 | only the first occurrence is replaced: the text before it, the replacement, and everything after it untouched |
| JsString.IndexOfAfterFreePrefix | index-otp-only.js:116 | a pattern is first found right after a prefix lacking its first character, which locates the placeholder of the default template |
| JsString.ToLower | index-render.js:190 | lower-casing keeps the length, leaves no upper-case ASCII letter, keeps every other character in place, and turns each upper-case letter into its lower-case partner |
| JsString.ToLowerIdempotent | index-render.js:190 | lower-casing twice is lower-casing once |
| JsString.TrimStart | index-render.js:190 | removes exactly the leading white space |
| JsString.TrimEnd | index-render.js:190 | removes exactly the trailing white space |
| JsString.Trim | index-render.js:190 | the trimmed text is a slice of the input with only white space cut from either side; it neither begins nor ends with white space, and it is empty exactly when the input is all white space |
| JsString.TrimIgnoresPadding | index-render.js:190 | white space added around a text does not change its trimmed form |
| JsString.TrimIdempotent | index-render.js:190 | trimming twice is trimming once |
| JsString.NatToDecimal | index-otp-only.js:117 | the decimal form of a number is a non-empty digit string without leading zeros |
| JsString.DecimalRoundTrip | index-otp-only.js:117 | reading the decimal form back gives the number |
| JsString.IntToDecimal | index-otp-only.js:117 | the text of an integer is an optional minus sign, present exactly when the integer is negative, followed by digits without a leading zero that read back as its magnitude |
| JsValue.ToStr | index-otp-only.js:117 | a string value converts to itself; every other value converts to non-empty text; a number converts to digits without a leading zero that read back as its value, with a minus sign exactly when it is negative |
| OtpExamples.UnsetTemplateGivesDefaultWording | index-otp-only.js:116-117 | with the template variable unset or empty, the message is the default Arabic wording followed by the OTP |
| OtpDispatch.PendingSelection | index-otp-only.js:95-101 | the query never selects a record without an OTP, a record whose `otp_sent` is anything but false or missing, or a record just marked; it selects every record with an OTP whose `otp_sent` is false or missing |
| OtpDispatch.MessageTextSubstitutesFirst | index-otp-only.js:116-117 | the message is the template with only its first `{OTP}` replaced by the OTP's text; a template without the placeholder is sent unchanged |
| OtpDispatch.MarkOtpAsSent | index-otp-only.js:143-159 | marking sets the sent flag, status and time of that record only and makes it no longer pending; a store error is swallowed and changes nothing |
| OtpDispatch.SendToNumber | index-otp-only.js:125-137 | the number is looked up, a send follows only when it resolves, and the record becomes what its attempt settles it to |
| OtpDispatch.SendOtpToUser | index-otp-only.js:112-141 | a non-string phone issues no call; otherwise it looks up the normalised number and sends the templated text to the resolved id, at most once; only that record can change |
| OtpDispatch.RunBatchSettlesEach | index-otp-only.js:103-105 | after the loop, each record of the batch is what its own attempt makes of it, and every other record is untouched |
| OtpDispatch.RunBatchSendCount | index-otp-only.js:103-105 | the loop sends once per batch record whose phone is a string and whose number resolved |
| OtpDispatch.PollTick | index-otp-only.js:88-109 | nothing happens when the client is not ready or the query fails; otherwise only pending records change, each as its attempt settles it, with one send per pending record that resolved |
| OtpDispatch.MarkedRecordIsFinal | index-otp-only.js:95-101 | a record whose sent flag is true is not selected, and no tick changes it |
| OtpDispatch.PendingUntilCompleted | index-otp-only.js:125-158 | a pending record stops being pending exactly when its attempt completes and the mark succeeds, and it then carries the status its resolution calls for; otherwise it is left as it was for the next tick |
| OtpExamples.DefaultMessageText | index-otp-only.js:116-117 | with the default template, the message is the fixed wording followed by the OTP |
| OtpExamples.SingleRecordDelivered | index-otp-only.js:112-141 | one fresh record that resolves and is accepted gives one lookup of the normalised number, one send of the default wording with the OTP, and a mark of `sent` |
| OtpExamples.SingleRecordNotOnNetwork | index-otp-only.js:125-131 | one fresh record whose number is not found gives no send and a mark of `failed_not_on_whatsapp` |
| Session.Transition | index-render.js:101-130 | `ready` sets ready and clears the token; `qr` stores the token; `disconnected` lowers ready and clears the token except in the single-channel server; `auth_failure` lowers ready only there; `authenticated` changes nothing; the OTP poller (index-otp-only.js:51-80) and the single-channel server (index-optimized.js:184-206) use the same function |
| Session.Effects | index-otp-only.js:56-80 | a reconnect is scheduled exactly on `disconnected` outside the single-channel server, and polling starts exactly on `ready` in the OTP poller |
| Session.RunMatchesLatestEvents | index-optimized.js:184-206 | after any event sequence, the flag and token are what the latest relevant events say, as defined independently by reading the sequence backwards |
| Session.QrPageFor | index-optimized.js:64-81 | the page says connected exactly when ready, and otherwise shows the stored token exactly when there is a non-empty one |
| Session.StatusAfterEvents | index-render.js:277-290 | for each client since start-up, the status says connected exactly when the latest event touching readiness was `ready`, and a QR available exactly when the latest uncleared `qr` event carried a non-empty token; index-otp-only.js:165-174 reports the same two facts, index-optimized.js:54-61 only the first |
| Session.ReadyHidesQr | index-render.js:311-319 | after `ready`, the QR page says connected and the status reports no QR |
| Session.QrEventShown | index-render.js:294-297 | a fresh non-empty token on a client that is not ready is what the QR page shows |
| Session.DisconnectOutcome | index-optimized.js:198-206 | after a disconnect, the single-channel server keeps offering its token and schedules nothing, while the others show a waiting page and schedule a reconnect |
| Session.OnChannelEvent | index-render.js:154-183 | an event of one client runs the dual-channel handler on that client's flag and token and leaves the other client's untouched |
| Session.ChannelsRunIndependently | index-render.js:154-183 | however the two clients' events interleave, each channel ends exactly as if only its own events had been handled, in their order |
| Commands.KeywordListsDisjoint | index-render.js:203-205 | no keyword belongs to two lists |
| Commands.ClassifyText | index-render.js:203-250 | although the lists are tried in the order subscribe, unsubscribe, help, each command is chosen exactly when the lowered and trimmed text is one of its keywords, and no command otherwise |
| Commands.CommandTextIgnoresCaseAndPadding | index-render.js:190 | surrounding white space and upper-case ASCII letters do not change the text that is classified |
| Commands.SenderPhoneIsNormalizedId | index-render.js:191-199 | removing the chat-id suffix before normalising changes nothing: the sender number is the normalised sender id |
| Commands.HandleCommand | index-render.js:207-254 | other text: no write and no reply; help: a reply only; subscribe: the contact number's document is marked subscribed with the sender id, the cache is untouched, and a reply follows only if the write succeeded; unsubscribe: keyed by the normalised sender id, always replied to |
| Commands.HandleMessage | index-render.js:188-258 | a subscribe keyword marks the contact number's document subscribed with the sender id and replies, unless the contact or the store fails; an unsubscribe keyword replies and, when the store answers, leaves the normalised sender id unsubscribed and its cache entry deleted; a help keyword only replies; any other text changes nothing; no document other than the command's own is touched; the handler never deletes a document, never adds a cache entry and answers only the sender |
| Commands.SubscribeCommandLeavesCacheStale | index-render.js:223-236 | a subscribe command for a number cached as not subscribed leaves lookups answering false although the document says subscribed |
| Commands.UnsubscribeMissesContactRecord | index-render.js:209-244 | when the contact number and the sender id normalise differently, a stop command leaves the earlier subscription in force |
| Commands.SubscribeThenStop | index-render.js:209-244 | when they normalise alike, a stop command after a subscribe leaves the number unsubscribed and reported so |
| HttpApi.AuthenticateNeedsConfiguredKey | index-render.js:263-270 | no request passes without a non-empty configured key, and the configured key itself passes; index-optimized.js:26-33 checks the key the same way |
| HttpApi.Authenticate | index-render.js:263-270 | fails closed: a request passes only when a non-empty key is configured and the header carries exactly that key, so a missing or empty header never passes |
| HttpApi.Deliver | index-render.js:352-371 | 200 with the message id exactly when the phone is a string, the number resolves and the send is accepted; 404 exactly when it does not resolve; 500 otherwise; the normalised number is looked up and the message goes unchanged to the resolved id, at most once |
| HttpApi.SendMessageEndpoint | index-render.js:341-372 | 401 exactly without the key; then 400 exactly when a field is falsy; then 503 exactly when the client is not ready, with no client call and no message id in any of these cases; otherwise the answer is the delivery's (200, 404 or 500 with its calls); index-optimized.js:84-114 answers the same way |
| HttpApi.SendAlias | index-optimized.js:117-120 | without the key, the alias answers 401 without any call |
| HttpApi.SendAliasIsSendMessage | index-optimized.js:117-120 | the alias answers every request exactly as `/send-message` does |
| HttpApi.SendNotification | index-render.js:375-411 | the statuses come in the order 401, 400, 503, then 403 exactly when the lookup answers false, otherwise the delivery's answer; none of these four refusals makes a client call or carries a message id, and no call is made unless the key, both fields and readiness all pass; the gate is the one the lookup leaves (its cache write included) once the lookup is reached, and unchanged before that; a client call happens only for a phone the gate reports subscribed, which, with a coherent cache, the store says is subscribed |
| HttpApi.NotificationOfSubscriberIsPlainSend | index-render.js:386-406 | for a subscribed number, a notification is answered exactly as `/send-message` would answer it |
| HttpApi.LocalNumberMissesNormalizedRecord | index-render.js:387-393 | the lookup uses the bare digits while the send uses the prefixed number, so, while the cache agrees with the store, the client is ready and the store answers, a local number is refused with 403 unless its bare digits are subscribed |
| HttpApi.CheckSubscriptionEndpoint | index-render.js:414-423 | 401 without the key and no change; otherwise 200 with exactly the lookup's answer and the gate the lookup leaves; true only if the cache or a successful store read says so |
| HttpApi.CheckEndpointIsStable | index-render.js:414-418 | once an answer came from the cache or a successful store read, asking again for any spelling of the number gives the same answer and changes nothing, even if the store has failed since |

## Left out

- Transport internals are not modelled. These are `getNumberId`, `sendMessage`, `getContact`, `initialize` and `destroy`, together with the browser settings. Their answers are inputs of the model.
- database.js and auth-strategy.js are not part of this model. The store is a map, and "not connected" is one of the store failures.
- Timers and concurrency are not modelled:
  - the poller's `setInterval` and the reconnect `setTimeout` (one tick or one event is modelled at a time);
  - the overlapping pollers started by repeated `ready` events, which are recorded only as a `StartPolling` effect;
  - interleaving between the message handler and the HTTP handlers.
- QR image generation, including its 500 answer, is not modelled. Neither are the HTML bodies of every page, the `/qr` dashboard and `/` pages, `process.uptime`, memory reporting, garbage collection, signal-driven shutdown, and the express and body-parser wiring (including the JSON parse-error path).
- Wall-clock dates are not modelled: `new Date()` is an opaque number.
- One time value `now` stands for every `new Date()` of a step. The source reads the clock on each call, so the marks of one batch and the `subscribedAt`/`updatedAt` pair of one write may differ by milliseconds, which the model does not represent.
- Strings are sequences of Unicode characters, not the UTF-16 code units JavaScript uses. Lengths and indices of text outside the Basic Multilingual Plane therefore differ; the code only compares, trims and searches strings, so no modelled decision depends on this.
- JsString.ToLower: lowers ASCII letters only. JavaScript's `toLowerCase` also lowers letters of other scripts, which this model leaves unchanged.
- JsValue.Value: numbers are integers. Fractional numbers, NaN, infinities and the exponent form `String` uses from 1e21 upwards are not modelled. Arrays and object contents are not modelled either.
- Subscriptions.CheckSubscription: a stored `subscribed` field is modelled as a boolean, so the `=== true` comparison with a non-boolean value is not modelled.
- Commands.HandleCommand: the reply's text and whether the reply itself succeeds are not modelled, because the handler swallows reply failures. A reply is recorded as attempted.
- OtpDispatch.PollTick: attempts on different records are assumed to read the same store snapshot the query returned. A record changed between the query and its own turn is not modelled.

=== FILE: commands.dfy ===
/**
  The inbound-message handler of the notifications client
  (index-render.js): a message whose text, lower-cased and trimmed, is
  exactly one of the subscribe, unsubscribe or help keywords changes the
  subscription store and is answered; any other message is ignored.
 */
module Commands {
  import opened Optional
  import JsString
  import Phone
  import opened Subscriptions

  const SubscribeKeywords: seq<string> := ["اشتراك", "subscribe", "start", "تفعيل"]
  const UnsubscribeKeywords: seq<string> := ["إلغاء", "stop", "unsubscribe", "إيقاف", "الغاء"]
  const HelpKeywords: seq<string> := ["مساعدة", "help", "?"]

  datatype Command = SubscribeCommand | UnsubscribeCommand | HelpCommand | NoCommand

  /** `msg.body.toLowerCase().trim()`. */
  function CommandText(body: string): string {
    JsString.Trim(JsString.ToLower(body))
  }

  /** No word is in two keyword lists. */
  lemma KeywordListsDisjoint()
    ensures forall w :: w in SubscribeKeywords ==> w !in UnsubscribeKeywords && w !in HelpKeywords
    ensures forall w :: w in UnsubscribeKeywords ==> w !in HelpKeywords
  {
  }

  /**
    Exact membership, tried in the order subscribe, unsubscribe, help.
    Because the lists are disjoint, the order does not matter: each command
    is chosen exactly when the text is one of its keywords.
   */
  function ClassifyText(text: string): (c: Command)
    ensures c == SubscribeCommand <==> text in SubscribeKeywords
    ensures c == UnsubscribeCommand <==> text in UnsubscribeKeywords
    ensures c == HelpCommand <==> text in HelpKeywords
    ensures c == NoCommand <==> text !in SubscribeKeywords + UnsubscribeKeywords + HelpKeywords
  {
    KeywordListsDisjoint();
    if text in SubscribeKeywords then SubscribeCommand
    else if text in UnsubscribeKeywords then UnsubscribeCommand
    else if text in HelpKeywords then HelpCommand
    else NoCommand
  }

  /** The command of a message body. */
  function Classify(body: string): Command {
    ClassifyText(CommandText(body))
  }

  lemma ToLowerAppend(a: string, b: string)
    ensures JsString.ToLower(a + b) == JsString.ToLower(a) + JsString.ToLower(b)
  {
  }

  lemma ToLowerKeepsSpace(s: string)
    requires JsString.AllSpace(s)
    ensures JsString.ToLower(s) == s
  {
  }

  /** Upper case letters and surrounding white space do not change the text that is classified. */
  lemma CommandTextIgnoresCaseAndPadding(front: string, body: string, back: string)
    requires JsString.AllSpace(front) && JsString.AllSpace(back)
    ensures CommandText(front + body + back) == CommandText(body)
    ensures CommandText(JsString.ToLower(body)) == CommandText(body)
  {
    ToLowerAppend(front + body, back);
    ToLowerAppend(front, body);
    ToLowerKeepsSpace(front);
    ToLowerKeepsSpace(back);
    JsString.TrimIgnoresPadding(front, JsString.ToLower(body), back);
    JsString.ToLowerIdempotent(body);
  }

  /** `msg.from.replace('@c.us', '').replace('@lid', '')`: the first occurrence of each suffix removed. */
  function StripSuffixes(from: string): string {
    JsString.ReplaceFirst(JsString.ReplaceFirst(from, "@c.us", ""), "@lid", "")
  }

  /** The sender number of index-render.js: the stripped sender id, digits only, with the country code. */
  function SenderPhone(from: string): string {
    Phone.Normalize(StripSuffixes(from))
  }

  lemma RemoveDigitFree(s: string, pat: string)
    requires forall i :: 0 <= i < |pat| ==> !Phone.IsDigit(pat[i])
    ensures Phone.DigitsOnly(JsString.ReplaceFirst(s, pat, "")) == Phone.DigitsOnly(s)
  {
    if JsString.IndexOf(s, pat).Some? {
      var i := JsString.IndexOf(s, pat).value;
      JsString.ReplaceFirstSplices(s, pat, "");
      assert s == s[..i] + pat + s[i + |pat|..];
      assert s[..i] + "" + s[i + |pat|..] == s[..i] + s[i + |pat|..];
      Phone.DigitsOnlyIgnoresDigitFree(s[..i], pat, s[i + |pat|..]);
    }
  }

  /** The suffixes hold no digit, so removing them is redundant: the sender number is Normalize of the raw id. */
  lemma SenderPhoneIsNormalizedId(from: string)
    ensures SenderPhone(from) == Phone.Normalize(from)
  {
    RemoveDigitFree(from, "@c.us");
    RemoveDigitFree(JsString.ReplaceFirst(from, "@c.us", ""), "@lid");
  }

  /** What `msg.getContact()` gives: a contact whose `number` may be missing or empty, or a rejection. */
  datatype Contact = Contact(number: Option<string>) | ContactError

  /** An inbound message: its text and the sender's chat id (`...@c.us` or `...@lid`). */
  datatype Message = Message(body: string, from: string)

  datatype ReplyKind = SubscribedReply | UnsubscribedReply | HelpReply

  /** A reply sent to the sender's chat id; its own failure is swallowed, so it is recorded as attempted only. */
  datatype Reply = Reply(to: string, kind: ReplyKind)

  datatype Handled = Handled(gate: Gate, reply: Option<Reply>)

  /** The number a subscription is stored under: the contact's number when it has one, else the stripped sender id; then normalised. */
  function ContactPhone(number: Option<string>, from: string): string {
    var raw := if number.Some? && number.value != "" then number.value else StripSuffixes(from);
    Phone.Normalize(raw)
  }

  /**
    The `message` handler once the text is classified. Subscribe writes the
    store directly (the subscriptions.js cache is not touched) under the
    contact's number and records the sender id; unsubscribe goes through
    `unsubscribeUser` with the number taken from the sender id. Any failure
    before the reply ends the handler quietly; a failed unsubscribe is
    still answered.
   */
  function HandleCommand(g: Gate, cmd: Command, from: string, contact: Contact, storeError: bool, now: Time): (h: Handled)
    ensures g.store.Keys <= h.gate.store.Keys
    ensures h.gate.cache.Keys <= g.cache.Keys
    ensures h.reply.Some? ==> h.reply.value.to == from
    ensures cmd == NoCommand ==> h == Handled(g, None)
    ensures cmd == HelpCommand ==> h == Handled(g, Some(Reply(from, HelpReply)))
    ensures cmd == SubscribeCommand && (contact.ContactError? || storeError) ==> h == Handled(g, None)
    ensures cmd == SubscribeCommand && contact.Contact? && !storeError ==>
              var key := ContactPhone(contact.number, from);
              && Subscribed(h.gate.store, key)
              && h.gate.store[key].whatsappId == Some(from)
              && OthersUnchanged(g.store, h.gate.store, key)
              && h.gate.cache == g.cache
              && h.reply == Some(Reply(from, SubscribedReply))
    ensures cmd == UnsubscribeCommand ==>
              var key := Phone.Normalize(from);
              && h.reply == Some(Reply(from, UnsubscribedReply))
              && (storeError ==> h.gate == g)
              && (!storeError ==> key in h.gate.store && !Subscribed(h.gate.store, key))
              && (!storeError ==> h.gate.cache == g.cache - {key} && OthersUnchanged(g.store, h.gate.store, key))
  {
    match cmd
    case SubscribeCommand =>
      if contact.ContactError? || storeError then Handled(g, None)
      else
        var key := ContactPhone(contact.number, from);
        var store := Upsert(g.store, key, SetFields(true, Some(from), Some(now), None, now));
        Handled(g.(store := store), Some(Reply(from, SubscribedReply)))
    case UnsubscribeCommand =>
      SenderPhoneIsNormalizedId(from);
      Phone.DigitsOfCanonical(from);
      var m := UnsubscribeUser(g, SenderPhone(from), now, storeError);
      Handled(m.gate, Some(Reply(from, UnsubscribedReply)))
    case HelpCommand => Handled(g, Some(Reply(from, HelpReply)))
    case NoCommand => Handled(g, None)
  }

  /**
    The `message` handler: classify the text, then act on the command. A
    keyword text does what its command does; any other text changes nothing.
    The handler never deletes a document, never adds a cache entry and
    answers only the sender.
   */
  function HandleMessage(g: Gate, msg: Message, contact: Contact, storeError: bool, now: Time): (h: Handled)
    ensures g.store.Keys <= h.gate.store.Keys
    ensures h.gate.cache.Keys <= g.cache.Keys
    ensures h.reply.Some? ==> h.reply.value.to == msg.from
    ensures CommandText(msg.body) !in SubscribeKeywords + UnsubscribeKeywords + HelpKeywords ==> h == Handled(g, None)
    ensures CommandText(msg.body) in HelpKeywords ==> h == Handled(g, Some(Reply(msg.from, HelpReply)))
    ensures CommandText(msg.body) in SubscribeKeywords && (contact.ContactError? || storeError) ==> h == Handled(g, None)
    ensures CommandText(msg.body) in SubscribeKeywords && contact.Contact? && !storeError ==>
              var key := ContactPhone(contact.number, msg.from);
              && Subscribed(h.gate.store, key)
              && h.gate.store[key].whatsappId == Some(msg.from)
              && OthersUnchanged(g.store, h.gate.store, key)
              && h.gate.cache == g.cache
              && h.reply == Some(Reply(msg.from, SubscribedReply))
    ensures CommandText(msg.body) in UnsubscribeKeywords ==>
              var key := Phone.Normalize(msg.from);
              && h.reply == Some(Reply(msg.from, UnsubscribedReply))
              && (storeError ==> h.gate == g)
              && (!storeError ==> key in h.gate.store && !Subscribed(h.gate.store, key))
              && (!storeError ==> h.gate.cache == g.cache - {key} && OthersUnchanged(g.store, h.gate.store, key))
  {
    HandleCommand(g, Classify(msg.body), msg.from, contact, storeError, now)
  }

  /**
    A subscribe command does not refresh the cache: a number cached as not
    subscribed keeps being reported as not subscribed, although its record
    now says subscribed, and the gate is no longer coherent.
   */
  lemma SubscribeCommandLeavesCacheStale(g: Gate, from: string, number: Option<string>, now: Time, storeError: bool)
    requires ContactPhone(number, from) in g.cache && !g.cache[ContactPhone(number, from)]
    ensures var h := HandleCommand(g, SubscribeCommand, from, Contact(number), false, now);
            var key := ContactPhone(number, from);
            && Subscribed(h.gate.store, key)
            && !CheckSubscription(h.gate, key, storeError).subscribed
            && !Coherent(h.gate)
  {
    Phone.DigitsOfCanonical(if number.Some? && number.value != "" then number.value else StripSuffixes(from));
  }

  /**
    Unsubscribe is keyed by the sender id, subscribe by the contact number:
    when the two normalise differently, a stop command leaves the
    subscription made by the earlier subscribe command in force.
   */
  lemma UnsubscribeMissesContactRecord(g: Gate, from: string, number: Option<string>, now: Time, later: Time)
    requires ContactPhone(number, from) != Phone.Normalize(from)
    ensures var h1 := HandleCommand(g, SubscribeCommand, from, Contact(number), false, now);
            var h2 := HandleCommand(h1.gate, UnsubscribeCommand, from, Contact(number), false, later);
            Subscribed(h2.gate.store, ContactPhone(number, from))
  {
    var h1 := HandleCommand(g, SubscribeCommand, from, Contact(number), false, now);
    var h2 := HandleCommand(h1.gate, UnsubscribeCommand, from, Contact(number), false, later);
    var k := ContactPhone(number, from);
    assert Subscribed(h1.gate.store, k);
    assert k in h1.gate.store - {Phone.Normalize(from)};
    assert h2.gate.store[k] == (h2.gate.store - {Phone.Normalize(from)})[k];
  }

  /**
    When the contact number and the sender id agree, a stop command after a
    subscribe command leaves the number unsubscribed, and a lookup says so.
   */
  lemma SubscribeThenStop(g: Gate, from: string, number: Option<string>, now: Time, later: Time, storeError: bool)
    requires ContactPhone(number, from) == Phone.Normalize(from)
    ensures var h1 := HandleCommand(g, SubscribeCommand, from, Contact(number), false, now);
            var h2 := HandleCommand(h1.gate, UnsubscribeCommand, from, Contact(number), false, later);
            && !Subscribed(h2.gate.store, Phone.Normalize(from))
            && !CheckSubscription(h2.gate, Phone.Normalize(from), storeError).subscribed
  {
    Phone.DigitsOfCanonical(from);
  }
}

=== FILE: http_api.dfy ===
/**
  The authenticated HTTP endpoints of the two servers: `/send-message`
  (and its `/send` alias in index-optimized.js), `/send-notification` and
  `/check-subscription/:phone`. A request is answered with a status code;
  the calls issued to the messaging client are recorded with it.
 */
module HttpApi {
  import opened Optional
  import opened JsValue
  import opened Transport
  import Phone
  import opened Subscriptions

  const OK := 200
  const BadRequest := 400
  const Unauthorized := 401
  const Forbidden := 403
  const NotFoundStatus := 404
  const ServerError := 500
  const Unavailable := 503

  /**
    The `x-api-key` check: the header must be present, non-empty and equal
    to the configured key. With no key configured nothing passes.
   */
  function Authenticate(header: Option<string>, apiKey: Option<string>): (ok: bool)
    ensures ok ==> apiKey.Some? && apiKey.value != ""
    ensures ok ==> header == apiKey
    ensures header.None? || header == Some("") ==> !ok
  {
    header.Some? && header.value != "" && apiKey == Some(header.value)
  }

  /** An unset or empty key locks every authenticated endpoint. */
  lemma AuthenticateNeedsConfiguredKey(header: Option<string>, apiKey: Option<string>)
    ensures Authenticate(header, apiKey) ==> apiKey.Some? && apiKey.value != ""
    ensures apiKey.Some? && apiKey.value != "" ==> Authenticate(Some(apiKey.value), apiKey)
  {
  }

  /** A response: its status, the message id returned on success, and the client calls made. */
  datatype Response = Response(status: int, messageId: Option<string>, calls: seq<Call>)

  function Reject(status: int): Response {
    Response(status, None, [])
  }

  /**
    The common tail of the send endpoints: normalise the number (a
    non-string makes `.replace` throw, answered 500), resolve it, and send
    `message` unchanged to the resolved id. A rejected lookup or send is 500,
    an unknown number 404.
   */
  function Deliver(number: Value, message: Value, resolution: Resolution, reply: SendReply): (r: Response)
    ensures r.status == OK <==> number.Str? && resolution.Found? && reply.Accepted?
    ensures r.status == OK ==> r.messageId == Some(reply.messageId)
    ensures r.status == NotFoundStatus <==> number.Str? && resolution.NotFound?
    ensures r.status in {OK, NotFoundStatus, ServerError}
    ensures number.Str? <==> r.calls != []
    ensures number.Str? ==> r.calls[0] == GetNumberId(Phone.Normalize(number.s))
    ensures SendCount(r.calls) == (if number.Str? && resolution.Found? then 1 else 0)
    ensures number.Str? && resolution.Found? ==> r.calls == [GetNumberId(Phone.Normalize(number.s)), SendMessage(resolution.serialized, message)]
  {
    if !number.Str? then Reject(ServerError)
    else
      var formatted := Phone.Normalize(number.s);
      SendCountOfAttempt(formatted, if resolution.Found? then resolution.serialized else "", message);
      match resolution
      case ResolveError => Response(ServerError, None, [GetNumberId(formatted)])
      case NotFound => Response(NotFoundStatus, None, [GetNumberId(formatted)])
      case Found(id) =>
        var calls := [GetNumberId(formatted), SendMessage(id, message)];
        match reply
        case SendError => Response(ServerError, None, calls)
        case Accepted(messageId) => Response(OK, Some(messageId), calls)
  }

  /**
    `POST /send-message` on the OTP client (index-render.js) or the only
    client (index-optimized.js): authentication, then both fields truthy,
    then the client ready, then delivery.
   */
  function SendMessageEndpoint(header: Option<string>, apiKey: Option<string>, number: Value, message: Value,
                               ready: bool, resolution: Resolution, reply: SendReply): (r: Response)
    ensures r.status == Unauthorized <==> !Authenticate(header, apiKey)
    ensures r.status == BadRequest <==> Authenticate(header, apiKey) && (!Truthy(number) || !Truthy(message))
    ensures r.status == Unavailable <==> Authenticate(header, apiKey) && Truthy(number) && Truthy(message) && !ready
    ensures r.calls != [] ==> Authenticate(header, apiKey) && Truthy(number) && Truthy(message) && ready
    ensures r.status in {Unauthorized, BadRequest, Unavailable} ==> r.calls == [] && r.messageId == None
    ensures Authenticate(header, apiKey) && Truthy(number) && Truthy(message) && ready ==>
              r == Deliver(number, message, resolution, reply)
    ensures r.status == OK ==>
              && number.Str? && resolution.Found? && reply.Accepted?
              && r.calls == [GetNumberId(Phone.Normalize(number.s)), SendMessage(resolution.serialized, message)]
              && r.messageId == Some(reply.messageId)
  {
    if !Authenticate(header, apiKey) then Reject(Unauthorized)
    else if !Truthy(number) || !Truthy(message) then Reject(BadRequest)
    else if !ready then Reject(Unavailable)
    else Deliver(number, message, resolution, reply)
  }

  /**
    `POST /send` of index-optimized.js: it passes the same key check and is
    then routed to `/send-message`, which checks the key again.
   */
  function SendAlias(header: Option<string>, apiKey: Option<string>, number: Value, message: Value,
                     ready: bool, resolution: Resolution, reply: SendReply): (r: Response)
    ensures !Authenticate(header, apiKey) ==> r.status == Unauthorized && r.calls == []
  {
    if !Authenticate(header, apiKey) then Reject(Unauthorized)
    else SendMessageEndpoint(header, apiKey, number, message, ready, resolution, reply)
  }

  /** The alias answers every request exactly as `/send-message` does. */
  lemma SendAliasIsSendMessage(header: Option<string>, apiKey: Option<string>, number: Value, message: Value,
                               ready: bool, resolution: Resolution, reply: SendReply)
    ensures SendAlias(header, apiKey, number, message, ready, resolution, reply)
         == SendMessageEndpoint(header, apiKey, number, message, ready, resolution, reply)
  {
  }

  datatype NotificationResult = NotificationResult(gate: Gate, response: Response)

  /** `checkSubscription(phone)`: a non-string makes `.replace` throw, which it answers with false. */
  function LookupValue(g: Gate, phone: Value, storeError: bool): (r: Lookup)
    ensures phone.Str? ==> r == CheckSubscription(g, phone.s, storeError)
    ensures !phone.Str? ==> r == Lookup(g, false)
  {
    if phone.Str? then CheckSubscription(g, phone.s, storeError) else Lookup(g, false)
  }

  /**
    `POST /send-notification` on the notifications client (index-render.js):
    as `/send-message`, with a subscription check between the readiness
    check and delivery; a number not found subscribed is refused with 403.
   */
  function SendNotification(header: Option<string>, apiKey: Option<string>, phone: Value, message: Value,
                            ready: bool, g: Gate, storeError: bool, resolution: Resolution, reply: SendReply): (r: NotificationResult)
    ensures r.gate.store == g.store
    ensures Coherent(g) ==> Coherent(r.gate)
    ensures r.gate == (if Authenticate(header, apiKey) && Truthy(phone) && Truthy(message) && ready
                       then LookupValue(g, phone, storeError).gate else g)
    ensures r.response.status == Unauthorized <==> !Authenticate(header, apiKey)
    ensures r.response.status == BadRequest <==> Authenticate(header, apiKey) && (!Truthy(phone) || !Truthy(message))
    ensures r.response.status == Unavailable <==> Authenticate(header, apiKey) && Truthy(phone) && Truthy(message) && !ready
    ensures r.response.status == Forbidden <==>
              Authenticate(header, apiKey) && Truthy(phone) && Truthy(message) && ready
              && !LookupValue(g, phone, storeError).subscribed
    ensures r.response.calls != [] ==> Authenticate(header, apiKey) && Truthy(phone) && Truthy(message) && ready
    ensures r.response.calls != [] ==> phone.Str? && CheckSubscription(g, phone.s, storeError).subscribed
    ensures r.response.status in {Unauthorized, BadRequest, Unavailable, Forbidden} ==>
              r.response.calls == [] && r.response.messageId == None
    ensures Coherent(g) && r.response.calls != [] ==> Subscribed(g.store, Key(phone.s))
    ensures Authenticate(header, apiKey) && Truthy(phone) && Truthy(message) && ready
            && LookupValue(g, phone, storeError).subscribed ==>
              r.response == Deliver(phone, message, resolution, reply)
  {
    if !Authenticate(header, apiKey) then NotificationResult(g, Reject(Unauthorized))
    else if !Truthy(phone) || !Truthy(message) then NotificationResult(g, Reject(BadRequest))
    else if !ready then NotificationResult(g, Reject(Unavailable))
    else
      var lookup := LookupValue(g, phone, storeError);
      if !lookup.subscribed then NotificationResult(lookup.gate, Reject(Forbidden))
      else
        FailClosed(g, phone.s, storeError);
        NotificationResult(lookup.gate, Deliver(phone, message, resolution, reply))
  }

  /** For a subscribed number, a notification is answered exactly as `/send-message` would answer it. */
  lemma NotificationOfSubscriberIsPlainSend(header: Option<string>, apiKey: Option<string>, phone: string, message: Value,
                                            ready: bool, g: Gate, storeError: bool, resolution: Resolution, reply: SendReply)
    requires CheckSubscription(g, phone, storeError).subscribed
    ensures SendNotification(header, apiKey, Str(phone), message, ready, g, storeError, resolution, reply).response
         == SendMessageEndpoint(header, apiKey, Str(phone), message, ready, resolution, reply)
  {
  }

  /**
    The subscription is looked up under the bare digits of the request's
    phone, while the message goes to the number with the country code: a
    local number whose record is kept only under its normalised form is
    refused, when the cache agrees with the store.
   */
  lemma LocalNumberMissesNormalizedRecord(header: Option<string>, apiKey: Option<string>, phone: string, message: Value,
                                          g: Gate, resolution: Resolution, reply: SendReply)
    requires Authenticate(header, apiKey) && phone != "" && Truthy(message)
    requires !Phone.StartsWith(Key(phone), Phone.CountryPrefix)
    requires Coherent(g) && !Subscribed(g.store, Key(phone))
    ensures Phone.Normalize(phone) != Key(phone)
    ensures SendNotification(header, apiKey, Str(phone), message, true, g, false, resolution, reply).response
         == Reject(Forbidden)
  {
    Phone.PrefixAddedOnlyWhenMissing(phone);
    CoherentCacheIsTransparent(g, phone);
  }

  datatype CheckResult = CheckResult(gate: Gate, status: int, subscribed: Option<bool>)

  /** `GET /check-subscription/:phone`: 401 without the key, otherwise 200 with the lookup's answer. */
  function CheckSubscriptionEndpoint(header: Option<string>, apiKey: Option<string>, phone: string, g: Gate, storeError: bool): (r: CheckResult)
    ensures !Authenticate(header, apiKey) ==> r == CheckResult(g, Unauthorized, None)
    ensures Authenticate(header, apiKey) ==> r.status == OK && r.subscribed.Some?
    ensures Authenticate(header, apiKey) ==>
              && r.gate == CheckSubscription(g, phone, storeError).gate
              && r.subscribed == Some(CheckSubscription(g, phone, storeError).subscribed)
    ensures r.subscribed == Some(true) ==> !storeError || Key(phone) in g.cache
    ensures Coherent(g) && r.subscribed.Some? ==> r.subscribed.value == (Subscribed(g.store, Key(phone)) && (!storeError || Key(phone) in g.cache))
  {
    if !Authenticate(header, apiKey) then CheckResult(g, Unauthorized, None)
    else
      var lookup := CheckSubscription(g, phone, storeError);
      FailClosed(g, phone, storeError);
      CheckResult(lookup.gate, OK, Some(lookup.subscribed))
  }

  /**
    Asking twice: once the first answer came from the cache or from a
    successful store read, a second request for any spelling of the same
    number gets the same answer and changes nothing, even if the store
    fails by then.
   */
  lemma CheckEndpointIsStable(header: Option<string>, apiKey: Option<string>, phone: string, other: string,
                              g: Gate, storeError: bool, laterError: bool)
    requires Authenticate(header, apiKey)
    requires Key(other) == Key(phone)
    requires !storeError || Key(phone) in g.cache
    ensures var first := CheckSubscriptionEndpoint(header, apiKey, phone, g, storeError);
            var second := CheckSubscriptionEndpoint(header, apiKey, other, first.gate, laterError);
            second == first
  {
  }
}

=== FILE: js_string.dfy ===
/**
  The JavaScript string primitives the service applies to message text,
  sender ids and templates: `indexOf`, `replace` with a string pattern
  (first occurrence only, with `$`-pattern expansion in the replacement),
  `toLowerCase`, `trim`, and the coercion of a number to a string.
 */
module JsString {
  import opened Optional

  /** `pat` occurs in `s` starting at position `i`. */
  predicate OccursAt(s: string, pat: string, i: nat) {
    i + |pat| <= |s| && s[i..i + |pat|] == pat
  }

  /** `s.indexOf(pat, from)`: the first position at or after `from` where `pat` occurs. */
  function IndexFrom(s: string, pat: string, from: nat): (r: Option<nat>)
    decreases |s| - from
    ensures r.Some? ==> from <= r.value && OccursAt(s, pat, r.value)
    ensures r.Some? ==> forall j :: from <= j < r.value ==> !OccursAt(s, pat, j)
    ensures r.None? ==> forall j :: from <= j ==> !OccursAt(s, pat, j)
  {
    if from + |pat| > |s| then None
    else if s[from..from + |pat|] == pat then Some(from)
    else IndexFrom(s, pat, from + 1)
  }

  /** `s.indexOf(pat)`. */
  function IndexOf(s: string, pat: string): (r: Option<nat>)
    ensures r.Some? ==> OccursAt(s, pat, r.value) && forall j: nat :: j < r.value ==> !OccursAt(s, pat, j)
    ensures r.None? ==> forall j: nat :: !OccursAt(s, pat, j)
  {
    IndexFrom(s, pat, 0)
  }

  /**
    The replacement text `String.prototype.replace` inserts for a string
    pattern (GetSubstitution with no capture groups): `$$` is a dollar sign,
    `$&` the matched text, `` $` `` the text before the match, `$'` the text
    after it; every other `$` stands for itself.
   */
  function Substitution(rep: string, matched: string, before: string, after: string): string
    decreases |rep|
  {
    if |rep| == 0 then ""
    else if rep[0] == '$' && |rep| >= 2 && rep[1] == '$' then "$" + Substitution(rep[2..], matched, before, after)
    else if rep[0] == '$' && |rep| >= 2 && rep[1] == '&' then matched + Substitution(rep[2..], matched, before, after)
    else if rep[0] == '$' && |rep| >= 2 && rep[1] == '`' then before + Substitution(rep[2..], matched, before, after)
    else if rep[0] == '$' && |rep| >= 2 && rep[1] == '\'' then after + Substitution(rep[2..], matched, before, after)
    else [rep[0]] + Substitution(rep[1..], matched, before, after)
  }

  /** A replacement without any `$` is inserted verbatim. */
  lemma {:induction false} SubstitutionVerbatim(rep: string, matched: string, before: string, after: string)
    requires forall i :: 0 <= i < |rep| ==> rep[i] != '$'
    ensures Substitution(rep, matched, before, after) == rep
    decreases |rep|
  {
    if |rep| > 0 {
      SubstitutionVerbatim(rep[1..], matched, before, after);
      assert rep == [rep[0]] + rep[1..];
    }
  }

  /** `s.replace(pat, rep)` with a string pattern: only the first occurrence is replaced. */
  function ReplaceFirst(s: string, pat: string, rep: string): (r: string)
    ensures IndexOf(s, pat).None? ==> r == s
  {
    match IndexOf(s, pat)
    case None => s
    case Some(i) =>
      s[..i] + Substitution(rep, pat, s[..i], s[i + |pat|..]) + s[i + |pat|..]
  }

  /**
    When `pat` occurs and the replacement has no `$`, the result is the text
    before the first occurrence, the replacement, and everything after that
    occurrence untouched, including any later occurrences of `pat`.
   */
  lemma ReplaceFirstSplices(s: string, pat: string, rep: string)
    requires forall i :: 0 <= i < |rep| ==> rep[i] != '$'
    requires IndexOf(s, pat).Some?
    ensures var i := IndexOf(s, pat).value;
            && ReplaceFirst(s, pat, rep) == s[..i] + rep + s[i + |pat|..]
            && (forall j: nat :: j < i ==> !OccursAt(s, pat, j))
  {
    var i := IndexOf(s, pat).value;
    SubstitutionVerbatim(rep, pat, s[..i], s[i + |pat|..]);
  }

  /** The first occurrence of `pat` in `pre + pat + post` is right after `pre` when `pre` lacks the first character of `pat`. */
  lemma IndexOfAfterFreePrefix(pre: string, pat: string, post: string)
    requires |pat| > 0
    requires forall i :: 0 <= i < |pre| ==> pre[i] != pat[0]
    ensures IndexOf(pre + pat + post, pat) == Some(|pre|)
  {
    var s := pre + pat + post;
    assert OccursAt(s, pat, |pre|) by {
      assert s[|pre|..|pre| + |pat|] == pat;
    }
    forall j: nat | j < |pre|
      ensures !OccursAt(s, pat, j)
    {
      assert s[j] == pre[j];
      if j + |pat| <= |s| {
        assert s[j..j + |pat|][0] == s[j];
      }
    }
  }

  /** ASCII letters `A`..`Z` lowered; every other character kept. */
  function LowerChar(c: char): char {
    if 'A' <= c <= 'Z' then (c as int - 'A' as int + 'a' as int) as char else c
  }

  /** `s.toLowerCase()` restricted to the ASCII letters. */
  function ToLower(s: string): (r: string)
    ensures |r| == |s|
    ensures forall i :: 0 <= i < |r| ==> !('A' <= r[i] <= 'Z')
    ensures forall i :: 0 <= i < |s| && !('A' <= s[i] <= 'Z') ==> r[i] == s[i]
    ensures forall i :: 0 <= i < |s| && 'A' <= s[i] <= 'Z' ==> 'a' <= r[i] <= 'z' && r[i] as int - s[i] as int == 'a' as int - 'A' as int
  {
    seq(|s|, i requires 0 <= i < |s| => LowerChar(s[i]))
  }

  lemma ToLowerIdempotent(s: string)
    ensures ToLower(ToLower(s)) == ToLower(s)
  {
  }

  /** The characters `String.prototype.trim` removes: WhiteSpace and LineTerminator of ECMA-262. */
  const Spaces: set<char> := {
    '\t', '\n', '\U{000B}', '\U{000C}', '\r', ' ', '\U{00A0}', '\U{1680}',
    '\U{2000}', '\U{2001}', '\U{2002}', '\U{2003}', '\U{2004}', '\U{2005}',
    '\U{2006}', '\U{2007}', '\U{2008}', '\U{2009}', '\U{200A}',
    '\U{2028}', '\U{2029}', '\U{202F}', '\U{205F}', '\U{3000}', '\U{FEFF}'
  }

  predicate IsSpace(c: char) {
    c in Spaces
  }

  predicate AllSpace(s: string) {
    forall i :: 0 <= i < |s| ==> IsSpace(s[i])
  }

  /** Drops leading white space: the result is a suffix of `s` and what was dropped is all white space. */
  function TrimStart(s: string): (r: string)
    ensures |r| <= |s| && r == s[|s| - |r|..]
    ensures AllSpace(s[..|s| - |r|])
    ensures |r| > 0 ==> !IsSpace(r[0])
  {
    if |s| > 0 && IsSpace(s[0]) then TrimStart(s[1..]) else s
  }

  /** Drops trailing white space: the result is a prefix of `s` and what was dropped is all white space. */
  function TrimEnd(s: string): (r: string)
    ensures |r| <= |s| && r == s[..|r|]
    ensures AllSpace(s[|r|..])
    ensures |r| > 0 ==> !IsSpace(r[|r| - 1])
  {
    if |s| > 0 && IsSpace(s[|s| - 1]) then TrimEnd(s[..|s| - 1]) else s
  }

  /** `s.trim()`. */
  function Trim(s: string): (r: string)
    ensures |r| <= |s|
    ensures |r| > 0 ==> !IsSpace(r[0]) && !IsSpace(r[|r| - 1])
    ensures r == "" <==> AllSpace(s)
    ensures PaddedBy(s, |s| - |TrimStart(s)|, r)
  {
    var t := TrimStart(s);
    PaddingAround(s, t, TrimEnd(t));
    TrimEnd(t)
  }

  /** `s` is `r` with `i` characters of white space before it and only white space after it. */
  predicate PaddedBy(s: string, i: int, r: string) {
    0 <= i <= |s| - |r| && r == s[i..i + |r|] && AllSpace(s[..i]) && AllSpace(s[i + |r|..])
  }

  /** What TrimStart and TrimEnd each promise, put together: a space-free-ended slice with space on both sides. */
  lemma PaddingAround(s: string, t: string, r: string)
    requires |t| <= |s| && t == s[|s| - |t|..] && AllSpace(s[..|s| - |t|])
    requires |t| > 0 ==> !IsSpace(t[0])
    requires |r| <= |t| && r == t[..|r|] && AllSpace(t[|r|..])
    requires |r| > 0 ==> !IsSpace(r[|r| - 1])
    ensures |r| > 0 ==> !IsSpace(r[0])
    ensures r == "" <==> AllSpace(s)
    ensures PaddedBy(s, |s| - |t|, r)
  {
    var i := |s| - |t|;
    assert s[i + |r|..] == t[|r|..];
    assert r == s[i..i + |r|];
    if r == "" {
      assert t[|r|..] == t;
      AllSpaceJoin(s[..i], t);
      assert s[..i] + t == s;
    } else {
      assert r[0] == t[0];
    }
  }

  lemma AllSpaceJoin(a: string, b: string)
    requires AllSpace(a) && AllSpace(b)
    ensures AllSpace(a + b)
  {
    forall k | 0 <= k < |a + b| ensures IsSpace((a + b)[k]) {
      if k >= |a| { assert (a + b)[k] == b[k - |a|]; }
    }
  }

  /** Trimming removes exactly the white space around the text: padding either side does not change the result. */
  lemma {:induction false} TrimIgnoresPadding(front: string, s: string, back: string)
    requires AllSpace(front) && AllSpace(back)
    ensures Trim(front + s + back) == Trim(s)
  {
    assert front + s + back == front + (s + back);
    TrimStartSkipsSpace(front, s + back);
    TrimStartAppend(s, back);
    if AllSpace(s) {
      TrimStartAllSpace(s);
      TrimStartAllSpace(back);
    } else {
      TrimEndSkipsSpace(TrimStart(s), back);
    }
  }

  lemma {:induction false} TrimStartSkipsSpace(front: string, x: string)
    requires AllSpace(front)
    ensures TrimStart(front + x) == TrimStart(x)
    decreases |front|
  {
    if |front| > 0 {
      assert (front + x)[1..] == front[1..] + x;
      TrimStartSkipsSpace(front[1..], x);
    } else {
      assert front + x == x;
    }
  }

  lemma {:induction false} TrimEndSkipsSpace(x: string, back: string)
    requires AllSpace(back)
    ensures TrimEnd(x + back) == TrimEnd(x)
    decreases |back|
  {
    if |back| > 0 {
      assert (x + back)[..|x + back| - 1] == x + back[..|back| - 1];
      TrimEndSkipsSpace(x, back[..|back| - 1]);
    } else {
      assert x + back == x;
    }
  }

  /** Leading white space of `s + back` is that of `s`, unless `s` is all white space. */
  lemma {:induction false} TrimStartAppend(s: string, back: string)
    ensures !AllSpace(s) ==> TrimStart(s + back) == TrimStart(s) + back
    ensures AllSpace(s) ==> TrimStart(s + back) == TrimStart(back)
  {
    if AllSpace(s) {
      TrimStartSkipsSpace(s, back);
    } else {
      TextStartAppend(s, back);
    }
  }

  lemma {:induction false} TextStartAppend(s: string, back: string)
    requires !AllSpace(s)
    ensures TrimStart(s + back) == TrimStart(s) + back
    decreases |s|
  {
    assert (s + back)[0] == s[0];
    if IsSpace(s[0]) {
      var tail := s[1..];
      assert (s + back)[1..] == tail + back;
      assert !AllSpace(tail) by {
        if AllSpace(tail) { AllSpaceCons(s); }
      }
      TextStartAppend(tail, back);
    }
  }

  lemma AllSpaceCons(s: string)
    requires |s| > 0 && IsSpace(s[0]) && AllSpace(s[1..])
    ensures AllSpace(s)
  {
    forall i | 0 <= i < |s| ensures IsSpace(s[i]) {
      if i > 0 { assert s[i] == s[1..][i - 1]; }
    }
  }

  lemma TrimStartAllSpace(s: string)
    requires AllSpace(s)
    ensures TrimStart(s) == ""
    decreases |s|
  {
    if |s| > 0 {
      TrimStartAllSpace(s[1..]);
    }
  }

  lemma TrimIdempotent(s: string)
    ensures Trim(Trim(s)) == Trim(s)
  {
  }

  /** The ASCII digit for `d`. */
  function DigitChar(d: nat): char
    requires d < 10
  {
    ('0' as int + d) as char
  }

  /** `String(n)` for a non-negative integer: its decimal digits, no leading zeros. */
  function NatToDecimal(n: nat): (r: string)
    ensures |r| >= 1
    ensures forall i :: 0 <= i < |r| ==> '0' <= r[i] <= '9'
    ensures |r| > 1 ==> r[0] != '0'
    decreases n
  {
    if n < 10 then [DigitChar(n)] else NatToDecimal(n / 10) + [DigitChar(n % 10)]
  }

  /** The number a string of decimal digits denotes. */
  function DecimalValue(s: string): nat
    requires forall i :: 0 <= i < |s| ==> '0' <= s[i] <= '9'
    decreases |s|
  {
    if |s| == 0 then 0 else 10 * DecimalValue(s[..|s| - 1]) + (s[|s| - 1] as int - '0' as int)
  }

  /** Reading back the decimal rendering gives the number. */
  lemma {:induction false} DecimalRoundTrip(n: nat)
    ensures DecimalValue(NatToDecimal(n)) == n
    decreases n
  {
    if n >= 10 {
      DecimalRoundTrip(n / 10);
      var r := NatToDecimal(n);
      assert r[..|r| - 1] == NatToDecimal(n / 10);
    }
  }

  /** `String(n)` for an integer: a minus sign before the magnitude's digits when negative. */
  function IntToDecimal(n: int): (r: string)
    ensures |r| >= 1
    ensures n < 0 <==> r[0] == '-'
    ensures var digits := if n < 0 then r[1..] else r;
            && |digits| >= 1
            && (forall i :: 0 <= i < |digits| ==> '0' <= digits[i] <= '9')
            && (|digits| > 1 ==> digits[0] != '0')
            && DecimalValue(digits) == if n < 0 then -n else n
  {
    var magnitude := if n < 0 then -n else n;
    DecimalRoundTrip(magnitude);
    if n < 0 then
      var r := "-" + NatToDecimal(-n);
      assert r[1..] == NatToDecimal(-n);
      r
    else NatToDecimal(n)
  }
}

=== FILE: js_value.dfy ===
/**
  The JavaScript values that reach the core from outside: fields of a
  parsed JSON request body and fields of a stored document. A missing
  field reads as `undefined`.
 */
module JsValue {
  import JsString

  /** Numbers are modelled as integers; `Obj` is a plain object. */
  datatype Value = Undefined | Null | Bool(b: bool) | Num(n: int) | Str(s: string) | Obj

  /** The JavaScript truthiness of a value (`!v` is its negation). */
  predicate Truthy(v: Value) {
    match v
    case Undefined => false
    case Null => false
    case Bool(b) => b
    case Num(n) => n != 0
    case Str(s) => s != ""
    case Obj => true
  }

  /** `String(v)`: the text a value turns into where a string is expected. */
  function ToStr(v: Value): (r: string)
    ensures v.Str? ==> r == v.s
    ensures !v.Str? ==> r != ""
    ensures v.Num? ==> (r[0] == '-' <==> v.n < 0)
    ensures v.Num? && v.n >= 0 ==>
              && (forall i :: 0 <= i < |r| ==> '0' <= r[i] <= '9')
              && (|r| > 1 ==> r[0] != '0')
              && JsString.DecimalValue(r) == v.n
    ensures v.Num? && v.n < 0 ==>
              && |r| >= 2
              && (forall i :: 1 <= i < |r| ==> '0' <= r[i] <= '9')
              && (|r| > 2 ==> r[1] != '0')
              && JsString.DecimalValue(r[1..]) == -v.n
  {
    match v
    case Undefined => "undefined"
    case Null => "null"
    case Bool(b) => if b then "true" else "false"
    case Num(n) => JsString.IntToDecimal(n)
    case Str(s) => s
    case Obj => "[object Object]"
  }
}

=== FILE: optional.dfy ===
/** A value that may be missing: JavaScript's `null`/`undefined` results. */
module Optional {
  datatype Option<+T> = None | Some(value: T)
}

=== FILE: otp_dispatch.dfy ===
/**
  The OTP poller (index-otp-only.js): every tick, while the client is
  ready, it finds the users whose OTP has not been sent, and for each one
  resolves the number, sends the OTP text and marks the record. Marking is
  the only guard against sending twice; a record whose attempt fails is
  left unmarked and is found again by the next tick.
 */
module OtpDispatch {
  import opened Optional
  import opened JsValue
  import opened Transport
  import JsString
  import Phone
  import opened Subscriptions

  /** A document `_id`. */
  type UserId = string

  /** The fields of a "users" document the poller reads or writes. */
  datatype User = User(phone: Value, otp: Value, otpSent: Value, otpStatus: Value, otpSentAt: Option<Time>)

  type Users = map<UserId, User>

  /** The placeholder of the message template. */
  const Placeholder: string := "{OTP}"

  /** The template used when `OTP_MESSAGE_TEMPLATE` is unset or empty. */
  const DefaultTemplate: string := "رمز التحقق الخاص بك في وصل-لي هو: {OTP}"

  const StatusSent: string := "sent"
  const StatusNotOnWhatsApp: string := "failed_not_on_whatsapp"

  /**
    The poll query: `otp` exists and is not null, and `otp_sent` is false
    or missing (any other `otp_sent` value, null included, is not matched).
   */
  predicate Pending(u: User) {
    && !u.otp.Undefined? && !u.otp.Null?
    && (u.otpSent == Bool(false) || u.otpSent.Undefined?)
  }

  /**
    What the query selects: no record without an OTP, no record whose
    `otp_sent` is anything but false or missing (null and true included),
    never a record just marked, and every record with an OTP that is not
    yet marked.
   */
  lemma PendingSelection(u: User, status: string, now: Time)
    ensures u.otp.Undefined? || u.otp.Null? ==> !Pending(u)
    ensures u.otpSent != Bool(false) && !u.otpSent.Undefined? ==> !Pending(u)
    ensures !Pending(u.(otpSent := Bool(true), otpStatus := Str(status), otpSentAt := Some(now)))
    ensures !u.otp.Undefined? && !u.otp.Null? && (u.otpSent == Bool(false) || u.otpSent.Undefined?) ==> Pending(u)
  {
  }

  /** `process.env.OTP_MESSAGE_TEMPLATE || default`. */
  function TemplateFrom(env: Option<string>): (t: string)
    ensures env.Some? && env.value != "" ==> t == env.value
    ensures env.None? || env.value == "" ==> t == DefaultTemplate
  {
    if env.Some? && env.value != "" then env.value else DefaultTemplate
  }

  /** `template.replace('{OTP}', otp)`. */
  function MessageText(template: string, otp: Value): string {
    JsString.ReplaceFirst(template, Placeholder, ToStr(otp))
  }

  /**
    Only the first placeholder is replaced, by the OTP's text; a template
    without the placeholder is sent unchanged.
   */
  lemma MessageTextSubstitutesFirst(template: string, otp: Value)
    requires forall i :: 0 <= i < |ToStr(otp)| ==> ToStr(otp)[i] != '$'
    ensures JsString.IndexOf(template, Placeholder).None? ==> MessageText(template, otp) == template
    ensures JsString.IndexOf(template, Placeholder).Some? ==>
              var i := JsString.IndexOf(template, Placeholder).value;
              MessageText(template, otp) == template[..i] + ToStr(otp) + template[i + |Placeholder|..]
  {
    if JsString.IndexOf(template, Placeholder).Some? {
      JsString.ReplaceFirstSplices(template, Placeholder, ToStr(otp));
    }
  }

  /** The record after `markOTPAsSent(id, status)`: the three OTP fields set, nothing else touched. */
  predicate MarkedFrom(before: User, after: User, status: string, now: Time) {
    after == before.(otpSent := Bool(true), otpStatus := Str(status), otpSentAt := Some(now))
  }

  /**
    `markOTPAsSent`: `updateOne({ _id }, { $set: ... })`. A store error is
    swallowed; an id no longer present matches nothing.
   */
  function MarkOtpAsSent(users: Users, id: UserId, status: string, now: Time, storeError: bool): (r: Users)
    ensures r.Keys == users.Keys
    ensures forall k :: k in users && k != id ==> r[k] == users[k]
    ensures storeError ==> r == users
    ensures !storeError && id in users ==> MarkedFrom(users[id], r[id], status, now) && !Pending(r[id])
  {
    if storeError || id !in users then users
    else users[id := users[id].(otpSent := Bool(true), otpStatus := Str(status), otpSentAt := Some(now))]
  }

  /** What the transport and the store do when one record is attempted. */
  datatype Attempt = Attempt(resolution: Resolution, reply: SendReply, markError: bool)

  /** The store after a dispatch, and the client calls it issued. */
  datatype Dispatch = Dispatch(users: Users, calls: seq<Call>)

  /** The attempt reaches the store write: the phone is a string and the number resolves or is reported absent, and any send was accepted. */
  predicate Completes(u: User, a: Attempt) {
    && u.phone.Str?
    && (a.resolution.NotFound? || (a.resolution.Found? && a.reply.Accepted?))
  }

  /**
    The record as one attempt leaves it, decided from that record and that
    attempt alone: marked `failed_not_on_whatsapp` when the number is not on
    the network, marked `sent` after an accepted send, and untouched when
    the phone is not a string, resolving or sending fails, or the mark fails.
   */
  function Settled(live: User, phone: Value, a: Attempt, now: Time): User {
    if !phone.Str? || a.markError then live
    else if a.resolution.NotFound? then live.(otpSent := Bool(true), otpStatus := Str(StatusNotOnWhatsApp), otpSentAt := Some(now))
    else if a.resolution.Found? && a.reply.Accepted? then live.(otpSent := Bool(true), otpStatus := Str(StatusSent), otpSentAt := Some(now))
    else live
  }

  /** The part of `sendOTPToUser` after the number has been formatted. */
  function SendToNumber(users: Users, id: UserId, number: string, text: string, a: Attempt, now: Time): (d: Dispatch)
    ensures id in users ==> d.users == users[id := Settled(users[id], Str(number), a, now)]
    ensures id !in users ==> d.users == users
    ensures a.resolution.Found? ==> d.calls == [GetNumberId(number), SendMessage(a.resolution.serialized, Str(text))]
    ensures !a.resolution.Found? ==> d.calls == [GetNumberId(number)]
  {
    match a.resolution
    case ResolveError => Dispatch(users, [GetNumberId(number)])
    case NotFound => Dispatch(MarkOtpAsSent(users, id, StatusNotOnWhatsApp, now, a.markError), [GetNumberId(number)])
    case Found(to) =>
      var calls := [GetNumberId(number), SendMessage(to, Str(text))];
      if a.reply.SendError? then Dispatch(users, calls)
      else Dispatch(MarkOtpAsSent(users, id, StatusSent, now, a.markError), calls)
  }

  /**
    `sendOTPToUser(user)`, where `user` is the document as the query
    returned it and `users` the collection at the time of the write. No
    error escapes: a non-string phone, a failed resolution or a failed
    send leave the collection as it was.
   */
  function SendOtpToUser(users: Users, id: UserId, user: User, template: string, a: Attempt, now: Time): (d: Dispatch)
    ensures id in users ==> d.users == users[id := Settled(users[id], user.phone, a, now)]
    ensures id !in users ==> d.users == users
    ensures !user.phone.Str? ==> d.calls == []
    ensures user.phone.Str? ==> |d.calls| >= 1 && d.calls[0] == GetNumberId(Phone.Normalize(user.phone.s))
    ensures SendCount(d.calls) == (if user.phone.Str? && a.resolution.Found? then 1 else 0)
    ensures user.phone.Str? && a.resolution.Found? ==>
              d.calls == [GetNumberId(Phone.Normalize(user.phone.s)),
                          SendMessage(a.resolution.serialized, Str(MessageText(template, user.otp)))]
  {
    if user.phone.Str? then
      var number := Phone.Normalize(user.phone.s);
      var text := MessageText(template, user.otp);
      SendCountOfAttempt(number, if a.resolution.Found? then a.resolution.serialized else "", Str(text));
      SendToNumber(users, id, number, text, a, now)
    else
      Dispatch(users, [])
  }

  /** The `for ... of` loop: the records in query order, one after another, each on its own. */
  function RunBatch(users: Users, snapshot: Users, batch: seq<UserId>, template: string,
                    attempts: UserId -> Attempt, now: Time): Dispatch
    requires forall i :: 0 <= i < |batch| ==> batch[i] in snapshot
    decreases |batch|
  {
    if |batch| == 0 then Dispatch(users, [])
    else
      var d := SendOtpToUser(users, batch[0], snapshot[batch[0]], template, attempts(batch[0]), now);
      var rest := RunBatch(d.users, snapshot, batch[1..], template, attempts, now);
      Dispatch(rest.users, d.calls + rest.calls)
  }

  predicate Distinct(s: seq<UserId>) {
    forall i, j :: 0 <= i < j < |s| ==> s[i] != s[j]
  }

  /** The ids the query returned: each pending record exactly once. */
  predicate Enumerates(order: seq<UserId>, users: Users) {
    && Distinct(order)
    && (forall i :: 0 <= i < |order| ==> order[i] in users && Pending(users[order[i]]))
    && (forall k :: k in users && Pending(users[k]) ==> k in order)
  }

  /** The ids in the batch whose attempt issues a send. */
  function Sending(batch: seq<UserId>, snapshot: Users, attempts: UserId -> Attempt): set<UserId>
    requires forall i :: 0 <= i < |batch| ==> batch[i] in snapshot
  {
    set i | 0 <= i < |batch| && snapshot[batch[i]].phone.Str? && attempts(batch[i]).resolution.Found? :: batch[i]
  }

  /**
    Per-item isolation: after the batch, each record of the batch is what
    its own attempt makes of it and every other record is untouched.
   */
  lemma {:induction false} RunBatchSettlesEach(users: Users, snapshot: Users, batch: seq<UserId>, template: string,
                                               attempts: UserId -> Attempt, now: Time)
    requires forall i :: 0 <= i < |batch| ==> batch[i] in snapshot
    requires Distinct(batch)
    requires forall i :: 0 <= i < |batch| ==> batch[i] in users ==> users[batch[i]] == snapshot[batch[i]]
    ensures var d := RunBatch(users, snapshot, batch, template, attempts, now);
            && d.users.Keys == users.Keys
            && (forall k :: k in users && k !in batch ==> d.users[k] == users[k])
            && (forall k :: k in users && k in batch ==> d.users[k] == Settled(users[k], users[k].phone, attempts(k), now))
    decreases |batch|
  {
    if |batch| > 0 {
      var d := RunBatch(users, snapshot, batch, template, attempts, now);
      var x := batch[0];
      var first := SendOtpToUser(users, x, snapshot[x], template, attempts(x), now);
      var tail := batch[1..];
      assert d.users == RunBatch(first.users, snapshot, tail, template, attempts, now).users;
      assert Distinct(tail);
      assert x !in tail;
      forall i | 0 <= i < |tail| && tail[i] in first.users
        ensures first.users[tail[i]] == snapshot[tail[i]]
      {
        assert tail[i] == batch[i + 1];
      }
      RunBatchSettlesEach(first.users, snapshot, tail, template, attempts, now);
      forall k | k in users && k in batch
        ensures d.users[k] == Settled(users[k], users[k].phone, attempts(k), now)
      {
        if k != x {
          var i :| 0 <= i < |batch| && batch[i] == k;
          assert tail[i - 1] == k;
        }
      }
    }
  }

  /** One send per record of the batch whose phone is a string and whose number resolved. */
  lemma {:induction false} RunBatchSendCount(users: Users, snapshot: Users, batch: seq<UserId>, template: string,
                                             attempts: UserId -> Attempt, now: Time)
    requires forall i :: 0 <= i < |batch| ==> batch[i] in snapshot
    requires Distinct(batch)
    ensures SendCount(RunBatch(users, snapshot, batch, template, attempts, now).calls) == |Sending(batch, snapshot, attempts)|
    decreases |batch|
  {
    if |batch| == 0 {
      assert Sending(batch, snapshot, attempts) == {};
    } else {
      var x := batch[0];
      var first := SendOtpToUser(users, x, snapshot[x], template, attempts(x), now);
      var tail := batch[1..];
      assert Distinct(tail);
      RunBatchSendCount(first.users, snapshot, tail, template, attempts, now);
      SendCountAppend(first.calls, RunBatch(first.users, snapshot, tail, template, attempts, now).calls);
      SendingSplit(batch, snapshot, attempts);
    }
  }

  lemma SendingSplit(batch: seq<UserId>, snapshot: Users, attempts: UserId -> Attempt)
    requires |batch| > 0
    requires forall i :: 0 <= i < |batch| ==> batch[i] in snapshot
    requires Distinct(batch)
    ensures var x := batch[0];
            |Sending(batch, snapshot, attempts)|
            == (if snapshot[x].phone.Str? && attempts(x).resolution.Found? then 1 else 0) + |Sending(batch[1..], snapshot, attempts)|
  {
    var x := batch[0];
    var tail := batch[1..];
    var rest := Sending(tail, snapshot, attempts);
    var here := if snapshot[x].phone.Str? && attempts(x).resolution.Found? then {x} else {};
    forall y | y in Sending(batch, snapshot, attempts) ensures y in here + rest {
      var i :| 0 <= i < |batch| && batch[i] == y && snapshot[y].phone.Str? && attempts(y).resolution.Found?;
      if i > 0 {
        assert tail[i - 1] == y;
      }
    }
    forall y | y in rest ensures y in Sending(batch, snapshot, attempts) {
      var i :| 0 <= i < |tail| && tail[i] == y && snapshot[y].phone.Str? && attempts(y).resolution.Found?;
      assert batch[i + 1] == y;
    }
    assert Sending(batch, snapshot, attempts) == here + rest;
    assert x !in rest;
  }

  /**
    One tick of the polling interval. Nothing happens unless the client is
    ready and the query succeeds; then every pending record, and only a
    pending record, is attempted, each as `Settled` says.
   */
  function PollTick(users: Users, ready: bool, queryError: bool, order: seq<UserId>, template: string,
                    attempts: UserId -> Attempt, now: Time): (d: Dispatch)
    requires Enumerates(order, users)
    ensures !ready || queryError ==> d == Dispatch(users, [])
    ensures d.users.Keys == users.Keys
    ensures forall k :: k in users && !Pending(users[k]) ==> d.users[k] == users[k]
    ensures ready && !queryError ==>
              forall k :: k in users && Pending(users[k]) ==> d.users[k] == Settled(users[k], users[k].phone, attempts(k), now)
    ensures ready && !queryError ==>
              SendCount(d.calls) == |set k | k in users && Pending(users[k]) && users[k].phone.Str? && attempts(k).resolution.Found?|
  {
    if !ready || queryError then Dispatch(users, [])
    else
      RunBatchSettlesEach(users, users, order, template, attempts, now);
      RunBatchSendCount(users, users, order, template, attempts, now);
      var sending := set k | k in users && Pending(users[k]) && users[k].phone.Str? && attempts(k).resolution.Found?;
      assert Sending(order, users, attempts) == sending by {
        forall k | k in sending ensures k in Sending(order, users, attempts) {
          var i :| 0 <= i < |order| && order[i] == k;
        }
      }
      RunBatch(users, users, order, template, attempts, now)
  }

  /**
    Idempotent marking: a record whose `otp_sent` is true is never selected
    again, so no later tick changes it, whatever its status.
   */
  lemma MarkedRecordIsFinal(users: Users, ready: bool, queryError: bool, order: seq<UserId>, template: string,
                            attempts: UserId -> Attempt, now: Time, k: UserId)
    requires Enumerates(order, users)
    requires k in users && users[k].otpSent == Bool(true)
    ensures k !in order
    ensures PollTick(users, ready, queryError, order, template, attempts, now).users[k] == users[k]
  {
  }

  /**
    At-least-once: after a live tick a pending record stops being pending
    exactly when its attempt completed, and then it carries the status its
    resolution called for; otherwise it is left for the next tick.
   */
  lemma PendingUntilCompleted(users: Users, order: seq<UserId>, template: string,
                              attempts: UserId -> Attempt, now: Time, k: UserId)
    requires Enumerates(order, users)
    requires k in users && Pending(users[k])
    ensures var after := PollTick(users, true, false, order, template, attempts, now).users[k];
            && (Pending(after) <==> !(Completes(users[k], attempts(k)) && !attempts(k).markError))
            && (!Pending(after) && attempts(k).resolution.NotFound? ==> MarkedFrom(users[k], after, StatusNotOnWhatsApp, now))
            && (!Pending(after) && attempts(k).resolution.Found? ==> MarkedFrom(users[k], after, StatusSent, now))
            && (Pending(after) ==> after == users[k])
  {
  }
}

=== FILE: otp_examples.dfy ===
/**
  The OTP poller on a single fresh record with the default template.
 */
module OtpExamples {
  import opened Optional
  import opened JsValue
  import opened Transport
  import opened OtpDispatch
  import JsString
  import Phone
  import opened Subscriptions

  /** The text of the default template before its placeholder. */
  const DefaultLead: string := "رمز التحقق الخاص بك في وصل-لي هو: "

  /** With the default template, the message is its fixed wording followed by the OTP. */
  lemma DefaultMessageText(otp: string)
    requires forall i :: 0 <= i < |otp| ==> otp[i] != '$'
    ensures MessageText(DefaultTemplate, Str(otp)) == DefaultLead + otp
  {
    assert DefaultTemplate == DefaultLead + Placeholder + "";
    JsString.IndexOfAfterFreePrefix(DefaultLead, Placeholder, "");
    MessageTextSubstitutesFirst(DefaultTemplate, Str(otp));
    assert DefaultTemplate[..|DefaultLead|] == DefaultLead;
    assert DefaultTemplate[|DefaultLead| + |Placeholder|..] == "";
  }

  /** With `OTP_MESSAGE_TEMPLATE` unset or empty, the message is the default wording followed by the OTP. */
  lemma UnsetTemplateGivesDefaultWording(env: Option<string>, otp: string)
    requires env.None? || env.value == ""
    requires forall i :: 0 <= i < |otp| ==> otp[i] != '$'
    ensures MessageText(TemplateFrom(env), Str(otp)) == DefaultLead + otp
  {
    DefaultMessageText(otp);
  }

  /** A user document with a fresh OTP that has not been sent. */
  function FreshUser(phone: string, otp: string): User {
    User(Str(phone), Str(otp), Bool(false), Undefined, None)
  }

  /**
    A tick over one fresh record whose number resolves and whose send is
    accepted: one lookup of the formatted number, one send of the default
    wording followed by the OTP, and the record marked `sent`.
   */
  lemma SingleRecordDelivered(id: UserId, phone: string, otp: string, to: string, messageId: string, now: Time)
    requires forall i :: 0 <= i < |otp| ==> otp[i] != '$'
    ensures var a := Attempt(Found(to), Accepted(messageId), false);
            var d := PollTick(map[id := FreshUser(phone, otp)], true, false, [id], DefaultTemplate, _ => a, now);
            && d.users[id] == FreshUser(phone, otp).(otpSent := Bool(true), otpStatus := Str(StatusSent), otpSentAt := Some(now))
            && d.calls == [GetNumberId(Phone.Normalize(phone)), SendMessage(to, Str(DefaultLead + otp))]
  {
    var users := map[id := FreshUser(phone, otp)];
    var a := Attempt(Found(to), Accepted(messageId), false);
    var attempts: UserId -> Attempt := _ => a;
    DefaultMessageText(otp);
    assert Enumerates([id], users);
    var first := SendOtpToUser(users, id, FreshUser(phone, otp), DefaultTemplate, a, now);
    assert RunBatch(users, users, [id], DefaultTemplate, attempts, now)
        == Dispatch(RunBatch(first.users, users, [], DefaultTemplate, attempts, now).users, first.calls + []);
    assert first.calls + [] == first.calls;
  }

  /**
    The same record when the number is not on the network: one lookup, no
    send, and the record marked `failed_not_on_whatsapp`.
   */
  lemma SingleRecordNotOnNetwork(id: UserId, phone: string, otp: string, reply: SendReply, now: Time)
    ensures var a := Attempt(NotFound, reply, false);
            var d := PollTick(map[id := FreshUser(phone, otp)], true, false, [id], DefaultTemplate, _ => a, now);
            && d.users[id] == FreshUser(phone, otp).(otpSent := Bool(true), otpStatus := Str(StatusNotOnWhatsApp), otpSentAt := Some(now))
            && d.calls == [GetNumberId(Phone.Normalize(phone))]
            && SendCount(d.calls) == 0
  {
    var users := map[id := FreshUser(phone, otp)];
    var a := Attempt(NotFound, reply, false);
    var attempts: UserId -> Attempt := _ => a;
    assert Enumerates([id], users);
    var first := SendOtpToUser(users, id, FreshUser(phone, otp), DefaultTemplate, a, now);
    assert RunBatch(users, users, [id], DefaultTemplate, attempts, now)
        == Dispatch(RunBatch(first.users, users, [], DefaultTemplate, attempts, now).users, first.calls + []);
    assert first.calls + [] == first.calls;
  }
}

=== FILE: phone.dfy ===
/**
  The two phone-number cleaners of the service. The subscription store keys
  numbers by their digits alone; the senders (OTP poller, HTTP endpoints and
  the inbound command handler) additionally prepend the Sudanese country
  code 249 when the digits do not already begin with it.
 */
module Phone {

  /** The country code the senders prepend. */
  const CountryPrefix: string := "249"

  predicate IsDigit(c: char) {
    '0' <= c <= '9'
  }

  predicate AllDigits(s: string) {
    forall i :: 0 <= i < |s| ==> IsDigit(s[i])
  }

  /** `s.startsWith(p)`. */
  predicate StartsWith(s: string, p: string) {
    |p| <= |s| && s[..|p|] == p
  }

  /**
    `s.replace(/[^0-9]/g, '')`: every character that is not an ASCII digit
    is removed; the digits keep their order and multiplicity.
   */
  function DigitsOnly(s: string): (r: string)
    ensures AllDigits(r)
    ensures |r| <= |s|
    decreases |s|
  {
    if |s| == 0 then "" else (if IsDigit(s[0]) then [s[0]] else "") + DigitsOnly(s[1..])
  }

  /** Every digit of `s` survives, as often as it occurs, and nothing else does. */
  lemma {:induction false} DigitsOnlyKeepsEveryDigit(s: string)
    ensures forall c :: multiset(DigitsOnly(s))[c] == if IsDigit(c) then multiset(s)[c] else 0
    decreases |s|
  {
    if |s| > 0 {
      DigitsOnlyKeepsEveryDigit(s[1..]);
      assert s == [s[0]] + s[1..];
    }
  }

  /** Digit stripping works piecewise, so the digits keep their relative order. */
  lemma {:induction false} DigitsOnlyAppend(a: string, b: string)
    ensures DigitsOnly(a + b) == DigitsOnly(a) + DigitsOnly(b)
    decreases |a|
  {
    if |a| == 0 {
      assert a + b == b;
    } else {
      var head := if IsDigit(a[0]) then [a[0]] else "";
      assert (a + b)[1..] == a[1..] + b;
      assert DigitsOnly(a + b) == head + DigitsOnly(a[1..] + b);
      DigitsOnlyAppend(a[1..], b);
      assert head + (DigitsOnly(a[1..]) + DigitsOnly(b)) == (head + DigitsOnly(a[1..])) + DigitsOnly(b);
    }
  }

  /** A string of digits only is left as it is. */
  lemma {:induction false} DigitsOnlyKeepsDigits(s: string)
    requires AllDigits(s)
    ensures DigitsOnly(s) == s
    decreases |s|
  {
    if |s| > 0 {
      DigitsOnlyKeepsDigits(s[1..]);
      assert s == [s[0]] + s[1..];
    }
  }

  /** The subscription key function is idempotent. */
  lemma DigitsOnlyIdempotent(s: string)
    ensures DigitsOnly(DigitsOnly(s)) == DigitsOnly(s)
  {
    DigitsOnlyKeepsDigits(DigitsOnly(s));
  }

  /** Removing text that holds no digit (such as "@c.us") does not change the digits. */
  lemma DigitsOnlyIgnoresDigitFree(before: string, removed: string, after: string)
    requires forall i :: 0 <= i < |removed| ==> !IsDigit(removed[i])
    ensures DigitsOnly(before + removed + after) == DigitsOnly(before + after)
  {
    DigitsOnlyAppend(before + removed, after);
    DigitsOnlyAppend(before, removed);
    DigitsOnlyAppend(before, after);
    DigitsOnlyOfDigitFree(removed);
    assert DigitsOnly(before) + "" == DigitsOnly(before);
    assert before + removed + after == (before + removed) + after;
  }

  lemma {:induction false} DigitsOnlyOfDigitFree(s: string)
    requires forall i :: 0 <= i < |s| ==> !IsDigit(s[i])
    ensures DigitsOnly(s) == ""
    decreases |s|
  {
    if |s| > 0 {
      DigitsOnlyOfDigitFree(s[1..]);
    }
  }

  /**
    The sender-side number: the digits of `raw`, with the country code put
    in front unless the digits already begin with it.
   */
  function Normalize(raw: string): (r: string)
    ensures AllDigits(r)
    ensures StartsWith(r, CountryPrefix)
    ensures |r| >= |DigitsOnly(raw)| && r[|r| - |DigitsOnly(raw)|..] == DigitsOnly(raw)
    ensures |r| <= |DigitsOnly(raw)| + |CountryPrefix|
  {
    var digits := DigitsOnly(raw);
    if StartsWith(digits, CountryPrefix) then digits else CountryPrefix + digits
  }

  /** A number is left unchanged by Normalize exactly when it is already canonical. */
  lemma NormalizeFixesExactlyCanonical(s: string)
    ensures Normalize(s) == s <==> AllDigits(s) && StartsWith(s, CountryPrefix)
  {
    if AllDigits(s) {
      DigitsOnlyKeepsDigits(s);
    }
  }

  lemma NormalizeIdempotent(raw: string)
    ensures Normalize(Normalize(raw)) == Normalize(raw)
  {
    NormalizeFixesExactlyCanonical(Normalize(raw));
  }

  /** The country code is added exactly when the digits do not already begin with it. */
  lemma PrefixAddedOnlyWhenMissing(raw: string)
    ensures Normalize(raw) == DigitsOnly(raw) <==> StartsWith(DigitsOnly(raw), CountryPrefix)
    ensures !StartsWith(DigitsOnly(raw), CountryPrefix) ==> Normalize(raw) == CountryPrefix + DigitsOnly(raw)
  {
  }

  /** A digit string without the country code gets it in front. */
  lemma NormalizeAddsPrefix(digits: string)
    requires AllDigits(digits) && !StartsWith(digits, CountryPrefix)
    ensures Normalize(digits) == CountryPrefix + digits
  {
    DigitsOnlyKeepsDigits(digits);
  }

  /** Stripping the digits first makes no difference to Normalize. */
  lemma NormalizeOfDigits(raw: string)
    ensures Normalize(DigitsOnly(raw)) == Normalize(raw)
  {
    DigitsOnlyIdempotent(raw);
  }

  /** The digits of a canonical number are the number itself. */
  lemma DigitsOfCanonical(raw: string)
    ensures DigitsOnly(Normalize(raw)) == Normalize(raw)
  {
    DigitsOnlyKeepsDigits(Normalize(raw));
  }
}

=== FILE: session.dfy ===
/**
  The messaging-session bookkeeping: per channel, a readiness flag and the
  pending pairing (QR) token, driven by the client's lifecycle events, and
  the `/status` and `/qr` answers read from them. Three programs attach
  slightly different handlers: the dual-channel server (index-render.js),
  the OTP poller (index-otp-only.js) and the single-channel server
  (index-optimized.js).
 */
module Session {
  import opened Optional

  /** A client lifecycle event. */
  datatype Event = Qr(token: string) | Ready | Authenticated | AuthFailure | Disconnected

  /** The readiness flag and the stored QR token of one channel. */
  datatype Channel = Channel(ready: bool, qr: Option<string>)

  /** Both variables start out `false` / `null`. */
  const Initial: Channel := Channel(false, None)

  /** Which program's handlers are attached. */
  datatype Flavor = DualChannel | OtpPoller | SingleChannel

  /** Side effects of a handler beyond the two variables. */
  datatype Effect = ScheduleReconnect | StartPolling

  /** Events that switch readiness off in the given program. */
  predicate Lowers(f: Flavor, e: Event) {
    e == Disconnected || (f == SingleChannel && e == AuthFailure)
  }

  /** Events that clear the stored token in the given program. */
  predicate Clears(f: Flavor, e: Event) {
    e == Ready || (f != SingleChannel && e == Disconnected)
  }

  /**
    One handler run. `ready` sets the flag and clears the token; `qr` stores
    the token; `disconnected` lowers the flag and, except in the
    single-channel server, clears the token; `auth_failure` lowers the flag
    only in the single-channel server; `authenticated` changes nothing.
   */
  function Transition(f: Flavor, c: Channel, e: Event): (r: Channel)
    ensures r.ready <==> e == Ready || (c.ready && !Lowers(f, e))
    ensures e.Qr? ==> r.qr == Some(e.token)
    ensures Clears(f, e) ==> r.qr == None
    ensures !e.Qr? && !Clears(f, e) ==> r.qr == c.qr
  {
    match e
    case Qr(token) => c.(qr := Some(token))
    case Ready => Channel(true, None)
    case Authenticated => c
    case AuthFailure => if f == SingleChannel then c.(ready := false) else c
    case Disconnected => if f == SingleChannel then c.(ready := false) else Channel(false, None)
  }

  /**
    The timers a handler starts: a reconnect five seconds after
    `disconnected` in the dual-channel server and the OTP poller, and a new
    polling interval on every `ready` in the OTP poller. The single-channel
    server starts neither.
   */
  function Effects(f: Flavor, e: Event): (r: seq<Effect>)
    ensures ScheduleReconnect in r <==> e == Disconnected && f != SingleChannel
    ensures StartPolling in r <==> e == Ready && f == OtpPoller
  {
    if e == Disconnected && f != SingleChannel then [ScheduleReconnect]
    else if e == Ready && f == OtpPoller then [StartPolling]
    else []
  }

  /** The handlers run in event order. */
  function Run(f: Flavor, c: Channel, es: seq<Event>): Channel
    decreases |es|
  {
    if |es| == 0 then c else Run(f, Transition(f, c, es[0]), es[1..])
  }

  /** Readiness read backwards: the latest event that sets or lowers the flag decides it. */
  function ReadyAfter(f: Flavor, es: seq<Event>, initial: bool): bool
    decreases |es|
  {
    if |es| == 0 then initial
    else if es[|es| - 1] == Ready then true
    else if Lowers(f, es[|es| - 1]) then false
    else ReadyAfter(f, es[..|es| - 1], initial)
  }

  /** The token read backwards: the latest `qr` event, unless an event that clears the token came after it. */
  function TokenAfter(f: Flavor, es: seq<Event>, initial: Option<string>): Option<string>
    decreases |es|
  {
    if |es| == 0 then initial
    else if es[|es| - 1].Qr? then Some(es[|es| - 1].token)
    else if Clears(f, es[|es| - 1]) then None
    else TokenAfter(f, es[..|es| - 1], initial)
  }

  lemma {:induction false} RunSnoc(f: Flavor, c: Channel, es: seq<Event>, e: Event)
    ensures Run(f, c, es + [e]) == Transition(f, Run(f, c, es), e)
    decreases |es|
  {
    if |es| == 0 {
      assert es + [e] == [e];
    } else {
      assert (es + [e])[1..] == es[1..] + [e];
      RunSnoc(f, Transition(f, c, es[0]), es[1..], e);
    }
  }

  /**
    After any sequence of events, the channel is exactly what the latest
    relevant events say: ready iff the last event that touches readiness was
    `ready`, and holding the token of the last `qr` event not followed by
    an event that clears it.
   */
  lemma {:induction false} RunMatchesLatestEvents(f: Flavor, c: Channel, es: seq<Event>)
    ensures Run(f, c, es) == Channel(ReadyAfter(f, es, c.ready), TokenAfter(f, es, c.qr))
    decreases |es|
  {
    if |es| > 0 {
      var init := es[..|es| - 1];
      assert es == init + [es[|es| - 1]];
      RunSnoc(f, c, init, es[|es| - 1]);
      RunMatchesLatestEvents(f, c, init);
    }
  }

  /** `!!qr`: a token is available only if it is present and not the empty string. */
  predicate HasToken(c: Channel) {
    c.qr.Some? && c.qr.value != ""
  }

  /** The three answers of a `/qr` page (the image rendering itself is not modelled). */
  datatype QrPage = AlreadyConnected | Waiting | ShowQr(token: string)

  /**
    `/qr` (index-otp-only.js, index-optimized.js) and `/qr/otp`,
    `/qr/notifications` (index-render.js): a ready channel reports that it
    is connected; otherwise the stored token is shown, or a waiting notice
    when there is none.
   */
  function QrPageFor(c: Channel): (p: QrPage)
    ensures p == AlreadyConnected <==> c.ready
    ensures p.ShowQr? <==> !c.ready && HasToken(c)
    ensures p.ShowQr? ==> c.qr == Some(p.token)
  {
    if c.ready then AlreadyConnected
    else if !HasToken(c) then Waiting
    else ShowQr(c.qr.value)
  }

  /** One channel's part of `/status`. */
  datatype StatusReport = StatusReport(connected: bool, qrAvailable: bool)

  function StatusOf(c: Channel): (r: StatusReport)
    ensures r.connected <==> c.ready
    ensures r.qrAvailable <==> HasToken(c)
  {
    StatusReport(c.ready, HasToken(c))
  }

  /**
    `/status` of a process that started with both variables unset: it
    reports connected exactly when the latest event touching readiness was
    `ready`, and a QR code exactly when the latest `qr` event, not cleared
    since, carried a non-empty token.
   */
  lemma {:induction false} StatusAfterEvents(f: Flavor, es: seq<Event>)
    ensures StatusOf(Run(f, Initial, es)).connected <==> ReadyAfter(f, es, false)
    ensures StatusOf(Run(f, Initial, es)).qrAvailable <==>
              TokenAfter(f, es, None).Some? && TokenAfter(f, es, None).value != ""
  {
    RunMatchesLatestEvents(f, Initial, es);
  }

  /** After `ready` the page says connected and no token is offered, whatever came before. */
  lemma ReadyHidesQr(f: Flavor, c: Channel)
    ensures QrPageFor(Transition(f, c, Ready)) == AlreadyConnected
    ensures StatusOf(Transition(f, c, Ready)) == StatusReport(true, false)
  {
  }

  /** A fresh non-empty token on a channel that is not ready is what `/qr` shows. */
  lemma QrEventShown(f: Flavor, c: Channel, token: string)
    requires !c.ready && token != ""
    ensures QrPageFor(Transition(f, c, Qr(token))) == ShowQr(token)
  {
  }

  /**
    In the dual-channel server and the OTP poller a disconnect leaves a
    waiting page and a reconnect timer; the single-channel server keeps
    offering the token it held and schedules nothing.
   */
  lemma DisconnectOutcome(f: Flavor, c: Channel)
    ensures f != SingleChannel ==> QrPageFor(Transition(f, c, Disconnected)) == Waiting
    ensures f != SingleChannel ==> Effects(f, Disconnected) == [ScheduleReconnect]
    ensures f == SingleChannel ==> Transition(f, c, Disconnected) == Channel(false, c.qr)
    ensures f == SingleChannel && HasToken(c) ==> QrPageFor(Transition(f, c, Disconnected)) == ShowQr(c.qr.value)
    ensures f == SingleChannel ==> Effects(f, Disconnected) == []
  {
  }

  /** The dual-channel server's two channels. */
  datatype ChannelName = OtpChannel | NotificationsChannel

  datatype Channels = Channels(otp: Channel, notifications: Channel)

  /** An event of one client touches only that client's variables. */
  function OnChannelEvent(s: Channels, name: ChannelName, e: Event): (r: Channels)
    ensures name == OtpChannel ==> r.notifications == s.notifications
    ensures name == NotificationsChannel ==> r.otp == s.otp
    ensures r.otp.ready != s.otp.ready ==> name == OtpChannel && (e == Ready || e == Disconnected)
    ensures r.notifications.ready != s.notifications.ready ==> name == NotificationsChannel && (e == Ready || e == Disconnected)
    ensures name == OtpChannel ==> r.otp == Transition(DualChannel, s.otp, e)
    ensures name == NotificationsChannel ==> r.notifications == Transition(DualChannel, s.notifications, e)
  {
    match name
    case OtpChannel => s.(otp := Transition(DualChannel, s.otp, e))
    case NotificationsChannel => s.(notifications := Transition(DualChannel, s.notifications, e))
  }

  /** An event together with the client that emitted it. */
  datatype Tagged = Tagged(channel: ChannelName, event: Event)

  /** Handle the tagged events of both clients in the order they arrive. */
  function RunChannels(s: Channels, ts: seq<Tagged>): Channels
    decreases |ts|
  {
    if |ts| == 0 then s else RunChannels(OnChannelEvent(s, ts[0].channel, ts[0].event), ts[1..])
  }

  /** The events one client emitted, in order. */
  function EventsOf(name: ChannelName, ts: seq<Tagged>): seq<Event>
    decreases |ts|
  {
    if |ts| == 0 then []
    else (if ts[0].channel == name then [ts[0].event] else []) + EventsOf(name, ts[1..])
  }

  /**
    The two clients do not interfere: however their events interleave, each
    channel ends up as if its own events alone had been handled.
   */
  lemma {:induction false} ChannelsRunIndependently(s: Channels, ts: seq<Tagged>)
    ensures RunChannels(s, ts) == Channels(Run(DualChannel, s.otp, EventsOf(OtpChannel, ts)),
                                           Run(DualChannel, s.notifications, EventsOf(NotificationsChannel, ts)))
    decreases |ts|
  {
    if |ts| > 0 {
      var t := ts[0];
      var next := OnChannelEvent(s, t.channel, t.event);
      ChannelsRunIndependently(next, ts[1..]);
      var own := EventsOf(t.channel, ts[1..]);
      assert ([t.event] + own)[0] == t.event;
      assert ([t.event] + own)[1..] == own;
      assert ([] + EventsOf(OtpChannel, ts[1..])) == EventsOf(OtpChannel, ts[1..]);
      assert ([] + EventsOf(NotificationsChannel, ts[1..])) == EventsOf(NotificationsChannel, ts[1..]);
    }
  }
}

=== FILE: subscriptions.dfy ===
/**
  The subscription gate (subscriptions.js): a durable "subscriptions"
  collection keyed by the digits of a phone number, fronted by a
  process-lifetime cache. Every operation takes a `storeError` input that
  stands for any failure of the store: the connection not being open
  (`getDatabase` throws) or the driver call rejecting.
 */
module Subscriptions {
  import opened Optional
  import Phone

  /** A `new Date()` reading; the model never looks inside it. */
  type Time = nat

  /** A document of the "subscriptions" collection; a field the document lacks is None. */
  datatype SubRecord = SubRecord(
    subscribed: bool,
    whatsappId: Option<string>,
    subscribedAt: Option<Time>,
    unsubscribedAt: Option<Time>,
    updatedAt: Option<Time>)

  /** The collection, by its `phone` field. */
  type Store = map<string, SubRecord>

  /** The in-memory `Map` of phone to last known subscription state. */
  type Cache = map<string, bool>

  datatype Gate = Gate(store: Store, cache: Cache)

  /** The `$set` part of an `updateOne`: None leaves that field as it is. */
  datatype SetFields = SetFields(
    subscribed: bool,
    whatsappId: Option<string>,
    subscribedAt: Option<Time>,
    unsubscribedAt: Option<Time>,
    updatedAt: Time)

  /** `{ success: true }` or `{ success: false, error }`. */
  datatype Outcome = Succeeded | Failed

  datatype Mutation = Mutation(gate: Gate, outcome: Outcome)

  /** The answer of `checkSubscription` and the gate it leaves behind. */
  datatype Lookup = Lookup(gate: Gate, subscribed: bool)

  /** Every operation of the gate keys by the digits of the phone, without a country code. */
  function Key(phone: string): string {
    Phone.DigitsOnly(phone)
  }

  /** What the store says: a record exists and its `subscribed` is true. */
  predicate Subscribed(store: Store, key: string) {
    key in store && store[key].subscribed
  }

  /** Every key other than `key` has the same entry (or absence of one) in both maps. */
  predicate OthersUnchanged<V(==)>(before: map<string, V>, after: map<string, V>, key: string) {
    before - {key} == after - {key}
  }

  /** Every cache entry agrees with the store. */
  predicate Coherent(g: Gate) {
    forall k :: k in g.cache ==> g.cache[k] == Subscribed(g.store, k)
  }

  /** `updateOne({ phone: key }, { $set: f }, { upsert: true })`. */
  function Upsert(store: Store, key: string, f: SetFields): (r: Store)
    ensures r.Keys == store.Keys + {key}
    ensures OthersUnchanged(store, r, key)
    ensures r[key].subscribed == f.subscribed && r[key].updatedAt == Some(f.updatedAt)
    ensures f.whatsappId.Some? ==> r[key].whatsappId == f.whatsappId
    ensures f.whatsappId.None? ==> r[key].whatsappId == (if key in store then store[key].whatsappId else None)
    ensures f.subscribedAt.Some? ==> r[key].subscribedAt == f.subscribedAt
    ensures f.subscribedAt.None? ==> r[key].subscribedAt == (if key in store then store[key].subscribedAt else None)
    ensures f.unsubscribedAt.Some? ==> r[key].unsubscribedAt == f.unsubscribedAt
    ensures f.unsubscribedAt.None? ==> r[key].unsubscribedAt == (if key in store then store[key].unsubscribedAt else None)
  {
    var base := if key in store then store[key] else SubRecord(false, None, None, None, None);
    store[key := SubRecord(
      f.subscribed,
      if f.whatsappId.Some? then f.whatsappId else base.whatsappId,
      if f.subscribedAt.Some? then f.subscribedAt else base.subscribedAt,
      if f.unsubscribedAt.Some? then f.unsubscribedAt else base.unsubscribedAt,
      Some(f.updatedAt))]
  }

  /**
    `subscribeUser`: upserts `subscribed: true` for the key, then caches
    true. A store error leaves both the store and the cache as they were.
   */
  function SubscribeUser(g: Gate, phone: string, now: Time, storeError: bool): (m: Mutation)
    ensures storeError ==> m == Mutation(g, Failed)
    ensures !storeError ==> m.outcome == Succeeded && Subscribed(m.gate.store, Key(phone))
    ensures !storeError ==> m.gate.cache == g.cache[Key(phone) := true]
    ensures !storeError ==> OthersUnchanged(g.store, m.gate.store, Key(phone))
    ensures !storeError && Key(phone) in g.store ==>
              && m.gate.store[Key(phone)].whatsappId == g.store[Key(phone)].whatsappId
              && m.gate.store[Key(phone)].unsubscribedAt == g.store[Key(phone)].unsubscribedAt
    ensures Coherent(g) ==> Coherent(m.gate)
  {
    if storeError then Mutation(g, Failed)
    else
      var key := Key(phone);
      var store := Upsert(g.store, key, SetFields(true, None, Some(now), None, now));
      Mutation(Gate(store, g.cache[key := true]), Succeeded)
  }

  /**
    `unsubscribeUser`: upserts `subscribed: false` for the key, then drops
    the key from the cache. A store error leaves both as they were.
   */
  function UnsubscribeUser(g: Gate, phone: string, now: Time, storeError: bool): (m: Mutation)
    ensures storeError ==> m == Mutation(g, Failed)
    ensures !storeError ==> m.outcome == Succeeded
    ensures !storeError ==> Key(phone) in m.gate.store && !Subscribed(m.gate.store, Key(phone))
    ensures !storeError ==> m.gate.cache == g.cache - {Key(phone)}
    ensures !storeError ==> OthersUnchanged(g.store, m.gate.store, Key(phone))
    ensures !storeError && Key(phone) in g.store ==>
              && m.gate.store[Key(phone)].whatsappId == g.store[Key(phone)].whatsappId
              && m.gate.store[Key(phone)].subscribedAt == g.store[Key(phone)].subscribedAt
    ensures Coherent(g) ==> Coherent(m.gate)
  {
    if storeError then Mutation(g, Failed)
    else
      var key := Key(phone);
      var store := Upsert(g.store, key, SetFields(false, None, None, Some(now), now));
      Mutation(Gate(store, g.cache - {key}), Succeeded)
  }

  /**
    `checkSubscription`: a cached answer is returned without touching the
    store; otherwise the store is asked and its answer cached for that key
    only. A store error answers false and caches nothing.
   */
  function CheckSubscription(g: Gate, phone: string, storeError: bool): (r: Lookup)
    ensures r.gate.store == g.store
    ensures Key(phone) in g.cache ==> r == Lookup(g, g.cache[Key(phone)])
    ensures Key(phone) !in g.cache && storeError ==> r == Lookup(g, false)
    ensures Key(phone) !in g.cache && !storeError ==>
              && r.subscribed == Subscribed(g.store, Key(phone))
              && r.gate.cache == g.cache[Key(phone) := r.subscribed]
    ensures Coherent(g) ==> Coherent(r.gate)
  {
    var key := Key(phone);
    if key in g.cache then Lookup(g, g.cache[key])
    else if storeError then Lookup(g, false)
    else
      var subscribed := Subscribed(g.store, key);
      Lookup(g.(cache := g.cache[key := subscribed]), subscribed)
  }

  /** Fail-closed: a true answer comes from a cached true or from a store record with `subscribed` true, never from an error. */
  lemma FailClosed(g: Gate, phone: string, storeError: bool)
    ensures CheckSubscription(g, phone, storeError).subscribed ==>
              (Key(phone) in g.cache && g.cache[Key(phone)]) || (!storeError && Subscribed(g.store, Key(phone)))
    ensures Coherent(g) && CheckSubscription(g, phone, storeError).subscribed ==> Subscribed(g.store, Key(phone))
  {
  }

  /** While the cache is coherent, it is invisible: a lookup without a store error answers what the store says. */
  lemma CoherentCacheIsTransparent(g: Gate, phone: string)
    requires Coherent(g)
    ensures CheckSubscription(g, phone, false).subscribed == Subscribed(g.store, Key(phone))
  {
  }

  /** After a successful subscribe the number is reported subscribed, even if the store then fails (the cache answers). */
  lemma SubscribeThenCheck(g: Gate, phone: string, other: string, now: Time, storeError: bool)
    requires Key(other) == Key(phone)
    ensures CheckSubscription(SubscribeUser(g, phone, now, false).gate, other, storeError).subscribed
  {
  }

  /**
    After a successful unsubscribe, a lookup of any spelling of the same
    number answers false, with or without a store error, and so does a
    lookup from an empty cache (a restarted process).
   */
  lemma UnsubscribeThenCheck(g: Gate, phone: string, other: string, now: Time, storeError: bool)
    requires Key(other) == Key(phone)
    ensures !CheckSubscription(UnsubscribeUser(g, phone, now, false).gate, other, storeError).subscribed
    ensures !CheckSubscription(UnsubscribeUser(g, phone, now, false).gate.(cache := map[]), other, storeError).subscribed
  {
  }

  /** The result of `getSubscriptionStats`. */
  datatype Stats = Stats(total: nat, subscribed: nat, unsubscribed: int, cacheSize: nat)

  function SubscribedKeys(store: Store): set<string> {
    set k | k in store && store[k].subscribed
  }

  /**
    `getSubscriptionStats`: the number of documents, of documents with
    `subscribed: true`, their difference and the cache size; null on a
    store error.
   */
  function GetSubscriptionStats(g: Gate, storeError: bool): (r: Option<Stats>)
    ensures storeError <==> r.None?
    ensures r.Some? ==>
              && r.value.total == |g.store|
              && r.value.subscribed <= r.value.total
              && r.value.unsubscribed == |set k | k in g.store && !g.store[k].subscribed|
              && r.value.subscribed + r.value.unsubscribed == r.value.total
              && r.value.cacheSize == |g.cache|
  {
    if storeError then None
    else
      var total := |g.store|;
      var subscribed := |SubscribedKeys(g.store)|;
      PartitionSizes(g.store);
      Some(Stats(total, subscribed, total - subscribed, |g.cache|))
  }

  /** The subscribed and the not subscribed documents split the collection. */
  lemma PartitionSizes(store: Store)
    ensures |SubscribedKeys(store)| + |set k | k in store && !store[k].subscribed| == |store|
  {
    var yes := SubscribedKeys(store);
    var no := set k | k in store && !store[k].subscribed;
    assert yes + no == store.Keys;
    assert yes * no == {};
    assert |store.Keys| == |store|;
  }
}

=== FILE: transport.dfy ===
/**
  The messaging client as the core sees it: two calls whose answers are
  inputs of the model, and a record of the calls issued, in order.
 */
module Transport {
  import opened JsValue

  /** What `getNumberId(number)` gives: an id (its `_serialized` form), null, or a rejection. */
  datatype Resolution = Found(serialized: string) | NotFound | ResolveError

  /** What `sendMessage(to, content)` gives: a message id, or a rejection. */
  datatype SendReply = Accepted(messageId: string) | SendError

  /** A call issued to the client. */
  datatype Call = GetNumberId(number: string) | SendMessage(to: string, content: Value)

  /** The number of `sendMessage` calls in a call record. */
  function SendCount(calls: seq<Call>): nat
    decreases |calls|
  {
    if |calls| == 0 then 0
    else (if calls[0].SendMessage? then 1 else 0) + SendCount(calls[1..])
  }

  lemma {:induction false} SendCountAppend(a: seq<Call>, b: seq<Call>)
    ensures SendCount(a + b) == SendCount(a) + SendCount(b)
    decreases |a|
  {
    if |a| == 0 {
      assert a + b == b;
    } else {
      assert (a + b)[1..] == a[1..] + b;
      SendCountAppend(a[1..], b);
    }
  }

  /** A lookup alone sends nothing; a lookup followed by a send is one send. */
  lemma SendCountOfAttempt(number: string, to: string, content: Value)
    ensures SendCount([GetNumberId(number)]) == 0
    ensures SendCount([GetNumberId(number), SendMessage(to, content)]) == 1
  {
    var calls := [GetNumberId(number), SendMessage(to, content)];
    assert calls[1..] == [SendMessage(to, content)];
    assert calls[1..][1..] == [];
    assert [GetNumberId(number)][1..] == [];
  }
}
